=== FILE: README.md ===
# CalendarSyncer booking core in Dafny

CalendarSyncer lets a user connect Outlook calendars and publish a shared booking link.
A customer opening the link sees the working-hours slots in which none of the linked
calendars is busy. The customer books one, and the booking is written to every linked
calendar. This project models the logic behind that flow and proves its properties:

- `Slots` (calendar_sync.py, `generate_time_slots`): the walk from the window start that
  snaps to 09:00, jumps to the next midnight after 17:00 or when a slot would overrun
  17:00, skips Saturdays and Sundays, and otherwise emits a slot and moves on by one slot
  length.
- `FreeBusy` (calendar_sync.py, `get_free_slots`): gathers the events of every calendar,
  keeps those whose `showAs` is busy, tentative, oof or workingElsewhere, and keeps the
  generated slots that no such event overlaps (half-open overlap test).
- `Bookings` (calendar_sync.py, `create_booking`): finds the shared link and creates an
  event in each linked calendar. The booking is meant to be committed only if every
  calendar returns an event id; a token refresh during event creation can commit it
  earlier (see Findings).
- `Auth` (auth.py): the token-refresh decision of `refresh_calendar_token`, the upsert of
  `store_calendar_tokens` and the uniqueness check of `register_user`.
- `Models` (models.py): the records, and the comma-separated calendar-id list of a shared
  link (`get_calendar_ids` / `set_calendar_ids`).
- `Text`: Python's `str.split`, `str.join`, `str(int)` and `int(str)` on the strings these
  functions use.
- `Clock`: minute arithmetic.
- `Wrappers`: `Option` and `Result`.

Time is a whole number of minutes in one fixed offset for slots, events and bookings.
Minute 0 is Monday 2024-01-01 00:00, so day = t / 1440, time of day = t % 1440 and
weekday = day % 7, with 0 meaning Monday. The token clock is a whole number of seconds.

The calls to the outside world are inputs:
- fetching a calendar's events is a per-calendar `Option<seq<Event>>`, where `None` means
  the fetch failed;
- creating an Outlook event is a function returning the new event id or `None`;
- the refresh-token request is a function returning an optional token response;
- password hashing is a function.

From 09:00 Monday to 17:00 Wednesday in 30-minute slots each day has 16 slots; one busy
event from 10:00 to 10:30 on the Monday leaves 47 free slots (`FreeBusy.ThreeDayScenario`).

## Model

| member | source | states |
|---|---|---|
| Clock.Midnight | calendar_sync.py:143-150 | The day's midnight is at most the timestamp and less than a day before it, and the timestamp is that midnight plus its time of day. |
| Clock.NextMidnight | calendar_sync.py:155-158 | "Midnight of the same day plus one day" lies strictly after the timestamp, exactly one day after that day's midnight, on the next day. |
| Slots.StepFrom | calendar_sync.py:142-190 | Each loop iteration strictly advances `current_time`. An emitted slot ends at the new `current_time` and starts either at the old one or at that day's 09:00 after the snap. |
| Slots.Generate | calendar_sync.py:142-192 | The loop terminates for a positive duration. Every slot starts at or after the walk's start, has the configured length, starts on a weekday between 09:00 and 17:00 and passes the overrun test. Slots are chronological and pairwise non-overlapping. A slot starts before `end_date` unless it was snapped to 09:00 on a day whose midnight is before `end_date`. |
| Slots.GenerateTimeSlots | calendar_sync.py:133-192 | The generator with the overrun check as intended. Each slot has `end = start + duration` and records the duration, starts at or after `start_date` on a weekday at or after 09:00, and ends by 17:00 of its own day. Slots are chronological. A duration over 8 hours yields no slot. |
| Slots.GenerateTimeSlotsAsWritten | calendar_sync.py:133-192 | The generator exactly as written. Same shape guarantees, except that only the end's time of day is known to be at most 17:00. |
| Slots.AsWrittenAgreesForShortSlots | calendar_sync.py:169-175 | For durations up to 7 hours the as-written and the corrected overrun checks generate the same slots. |
| Slots.MidnightOverrunAsWritten | calendar_sync.py:166-175 | With 450-minute slots from Monday 00:00 the code as written emits 16:30–00:00, which runs past 17:00 of its day. The corrected generator emits only 09:00–16:30. |
| Slots.StepInsideWorkingHours | calendar_sync.py:165-190 | Inside working hours one iteration emits the slot starting now (on a weekday) and moves to its end, or jumps to the next midnight if the slot would end after 17:00. |
| Slots.NoRoomLeft | calendar_sync.py:169-175 | When no further slot fits before 17:00, the walk continues from the next midnight with nothing emitted. |
| Slots.RestOfDay | calendar_sync.py:142-190 | From a point inside working hours, the rest of that day yields exactly the back-to-back slots that end by 17:00 (none on a weekend). The walk then resumes at the next midnight. |
| Slots.DayGridLattice | calendar_sync.py:165-190 | The i-th back-to-back slot of a day starts at `from + i * duration`. Their number is the count of whole slot lengths that fit before the day's end. |
| Slots.WholeDay | calendar_sync.py:142-190 | A whole day inside the window contributes the 09:00, 09:00 + d, … slots that end by 17:00 on a weekday, and nothing on a weekend. |
| Slots.LastDay | calendar_sync.py:142-190 | On the day a window ends before 17:00, the walk from a point inside working hours yields exactly that day's back-to-back slots that start before the window's end and end by 17:00 (none on a weekend), and then stops. |
| Slots.FinalDay | calendar_sync.py:142-190 | A window from a midnight to before 17:00 that day yields the day's lattice cells starting before its end if it ends after 09:00. If it ends by 09:00, the snap still yields the single 09:00 slot on a weekday. |
| Slots.MondayToWednesday | calendar_sync.py:133-192 | From 09:00 Monday to 17:00 Wednesday the generator yields the full lattice of each of the three days. |
| FreeBusy.BlockingEventsMembership | calendar_sync.py:91-100 | An event is kept exactly when it was fetched and its `showAs` is busy, tentative, oof or workingElsewhere. |
| FreeBusy.BusyEventsMembership | calendar_sync.py:87-101 | An event is in `all_events` exactly when some calendar's successful fetch returned it with a blocking status. |
| FreeBusy.BusyEventsAppend | calendar_sync.py:87-101 | The events of a list of calendars are those of each part, in calendar order. |
| FreeBusy.FailedCalendarContributesNothing | calendar_sync.py:88-89 | A calendar whose fetch failed or returned no events adds nothing, and the calendars around it still contribute theirs. |
| FreeBusy.CollectBusyEvents | calendar_sync.py:84-101 | The gathering loop builds exactly the blocking events of every calendar, calendar after calendar. |
| FreeBusy.CheckFree | calendar_sync.py:119-125 | The inner scan, which stops at the first overlap, reports free exactly when no event overlaps the slot. |
| FreeBusy.GetFreeSlots | calendar_sync.py:82-131 | The result is the generated slots filtered by the busy events. With no busy events it is exactly the generated slots. With the time-of-day overrun test this is the code as written; with the same-day test it is the corrected generator. |
| FreeBusy.FreeSlotsAgreeForShortSlots | calendar_sync.py:105-111 | For slot lengths up to 7 hours the free slots are the same whichever overrun test the generator uses, for any busy events. |
| FreeBusy.FreeSlotsMembership | calendar_sync.py:113-131 | A slot is returned exactly when it was generated and no busy event has `slot.start < event.end` and `slot.end > event.start`. |
| FreeBusy.FreeSlotsAppend | calendar_sync.py:114-131 | Filtering is done slot by slot: the free slots of a concatenation are the free slots of each part, in order. |
| FreeBusy.FreeSlotsChronological | calendar_sync.py:114-131 | The free slots keep the chronological order of the generated slots. |
| FreeBusy.NoBusyEventsFreesAll | calendar_sync.py:103-105 | With no busy events every generated slot is free, so the short cut returns the same result as the general path. |
| FreeBusy.FreeSlotsDependOnlyOnEventSet | calendar_sync.py:107-108 | The result depends only on which events are busy, not on their order, so sorting the events by start changes nothing. |
| FreeBusy.FreeSlotsKeepsFreeSlots | calendar_sync.py:113-131 | Slots that no busy event overlaps all survive the filter unchanged and in order. |
| FreeBusy.TouchingDoesNotBlock | calendar_sync.py:123 | An event that ends exactly when a slot starts, or starts exactly when it ends, does not block the slot. |
| FreeBusy.GridLosesOneSlot | calendar_sync.py:113-131 | An event covering exactly the k-th slot of a day's lattice removes that slot and keeps every other slot in order. |
| FreeBusy.ThreeDayScenario | calendar_sync.py:82-192 | Window 09:00 Monday to 17:00 Wednesday, 30-minute slots, one busy event 10:00–10:30 Monday. The result has 47 slots. The 10:00 slot is not among them; the touching 09:30 and 10:30 slots are. |
| Models.ParseAll | models.py:51 | Every segment is parsed in order, giving one id per segment. The list comprehension fails exactly when some segment is not an integer literal. |
| Models.GetCalendarIds | models.py:47-51 | An unset or empty string gives no ids. Otherwise there are as many ids as commas plus one, and the call succeeds exactly when every segment is an integer literal. |
| Models.SetCalendarIds | models.py:53-55 | The stored string is empty exactly for the empty list. Otherwise splitting it at the commas gives the decimal text of each id, in list order. |
| Models.CalendarIdsRoundTrip | models.py:47-55 | Reading back what `set_calendar_ids` stored yields the same ids for every integer list, including the empty one. |
| Models.EmptySegmentFails | models.py:51 | A non-empty string with an empty segment (two adjacent commas, or a leading or trailing comma) makes `get_calendar_ids` fail. |
| Models.TrailingCommaFails | models.py:51 | A trailing comma makes `get_calendar_ids` fail. |
| Text.Split | models.py:51 | `str.split(',')` gives one more piece than there are separators, and no piece contains the separator. |
| Text.JoinSplit | models.py:51-55 | Joining the pieces of a split restores the string. |
| Text.SplitJoin | models.py:51-55 | Splitting a join of comma-free pieces gives the pieces back. |
| Text.ParseInt | models.py:51 | `int()` on a segment: an optional sign followed by ASCII digits gives their value; any other text, the empty string included, fails. |
| Text.ParseIntToDecimal | models.py:51-55 | `int(str(i)) == i` for every integer, negative ones included. |
| Auth.ExpiryAfter | auth.py:110 | The new expiry is `expires_in` seconds after now, or 3600 seconds when the response has no `expires_in`. |
| Auth.RefreshCalendarToken | auth.py:93-115 | A refresh is requested exactly when the expiry is unset or at most five minutes away and a non-empty refresh token is stored, and it sends the stored refresh token. When no refresh is needed the stored access token is returned unchanged. When one is needed and no refresh token is stored, nothing is returned and the record is unchanged. On any failure the record is unchanged. The session is committed exactly when a refresh succeeded. Only the token fields ever change. |
| Auth.ValidIffNoRefresh | auth.py:96 | The stored token is used exactly when the refresh condition is false. |
| Auth.RefreshBoundary | auth.py:96 | Expiry exactly five minutes from now triggers a refresh. Expiry one second later returns the stored token with no request. |
| Auth.ValidTokenIgnoresProvider | auth.py:95-97 | While the stored token is valid, the identity platform's answer cannot influence the result. |
| Auth.RefreshStoresResponse | auth.py:104-112 | A response with an access token replaces the access token. The refresh token is replaced only if the response has one. The expiry becomes now plus `expires_in`, defaulting to 3600. The new access token is returned. |
| Auth.RefreshedTokenIsReused | auth.py:95-112 | After a successful refresh whose new token lasts more than five minutes, the next call at the same time makes no request and returns that token. |
| Auth.FailedRefreshChangesNothing | auth.py:104-115 | No response, or one without an access token, returns nothing and leaves the record unchanged. |
| Auth.NextId | auth.py:75-84 | A new row's id is larger than every id in use in its table, and 1 in an empty table. |
| Auth.FindCalendar | auth.py:64 | The lookup finds the first calendar with the given owner and Outlook id, or reports that none exists. |
| Auth.StoreCalendarTokens | auth.py:60-91 | An existing calendar with the same owner and Outlook id is updated in place and keeps its id and its active flag; nothing else changes. Otherwise exactly one new active calendar with a fresh id is appended. Either way the record written carries the name, both tokens from the response, an expiry of now plus `expires_in` (default 3600) and a last-sync time of now. |
| Auth.StoreKeepsKeysUnique | auth.py:63-86 | The upsert never produces two calendars with the same owner and Outlook id. |
| Auth.StoreTwiceUpdates | auth.py:64-72 | Storing the same calendar a second time updates it rather than adding a record. |
| Auth.RegisterUser | auth.py:117-137 | Registration fails with "Username or email already exists" exactly when the username or the email is taken, and then changes nothing. Otherwise it appends exactly one user with the hashed password. |
| Auth.RegisterKeepsUsersUnique | auth.py:120-133 | Registration keeps usernames and emails unique and gives the new user a fresh id. |
| Bookings.EventBody | calendar_sync.py:227 | The event body is "Booking made by ", the customer's name, " (", the email, ")", a blank line, then the description. |
| Bookings.PayloadFor | calendar_sync.py:221-246 | Every calendar receives the request's subject, start and end time, the event body above, and the customer as attendee. |
| Bookings.Message | calendar_sync.py:198-255 | An unknown link returns "Shared link not found" and a failed event creation returns "Failed to create events in all calendars". An invalid calendar id returns the exception's own text, for which no fixed message exists. |
| Bookings.FindLink | calendar_sync.py:198-200 | The link found has the requested id. No link means no stored link has that id. |
| Bookings.SelectCalendars | calendar_sync.py:216-217 | Exactly the stored calendars whose id is in the link's list are selected, each no more often than it is stored. |
| Bookings.CreateEvents | calendar_sync.py:220-255 | Either every calendar returned an id, and the ids are kept in calendar order, or creation stopped at the first calendar that failed. In that case the earlier calendars all returned ids. |
| Bookings.CreateBooking | calendar_sync.py:194-265 | An unknown link fails with "Shared link not found", and only then. A known link whose id list does not parse fails with `InvalidCalendarIds` and leaves the store unchanged. Any failure leaves the store unchanged. Success appends exactly one booking carrying the request's customer, times, subject and description. |
| Bookings.BookingAllOrNothing | calendar_sync.py:248-261 | With no commit during event creation: for a known link with a valid id list, the booking succeeds exactly when every linked calendar returns an event id. Otherwise it fails with "Failed to create events in all calendars" and commits nothing. |
| Bookings.CreateCalendarEvent | calendar_sync.py:51-80 | The event is posted with the token `refresh_calendar_token` hands back exactly when that token is present and non-empty, and its id is then the post's answer. The session is committed exactly when the refresh committed it. A valid stored token is used without a commit. |
| Bookings.DueTokenCommits | auth.py:104-111 | Creating an event in a calendar whose token is due and whose refresh succeeds commits the session. |
| Bookings.CreateBookingAsWritten | calendar_sync.py:194-265 | The code as written reports the same result as the all-or-nothing model, and on success writes the same store. When event creation fails, the store changes exactly when some calendar up to and including the failing one committed the session. The only change it can make is one committed booking with no event ids. |
| Bookings.NoCommitMeansAllOrNothing | calendar_sync.py:212-259 | If no event creation commits the session, the code as written behaves exactly like the all-or-nothing model. |
| Bookings.PartialBookingCommitted | calendar_sync.py:212-254 | With two linked calendars, where the first commits the session and accepts the event and the second refuses it, the caller gets "Failed to create events in all calendars". The store still gains a booking without event ids. The all-or-nothing model leaves the store unchanged. |
| Bookings.BookingRecordsEventIds | calendar_sync.py:257-258 | The stored event ids are the returned ids in calendar order: empty for no calendars, otherwise splitting the field at the commas gives them back. |

## Left out

- The Microsoft Graph requests of `get_calendar_events` and `create_calendar_event`, and the MSAL calls (`get_auth_app`, `get_auth_url`, `get_token_from_code`, `get_token_from_refresh_token`). These are network clients; their results are inputs.
- `login_user` and werkzeug password hashing: hashing is a function parameter.
- `strftime` display strings and the `formatted_start`, `formatted_end` and `display` fields of a slot. ISO date parsing of fetched events, pytz and `astimezone` are also left out: all times are integer minutes in one fixed offset, so there is no DST.
- Sub-minute precision: routes.py:233 starts the window at `datetime.now(pytz.utc)`, which carries seconds and microseconds. The model counts whole minutes, so a window start must be rounded, and rounding can change the last slot of a day: from 16:30:30 a 30-minute slot overruns 17:00, from 16:30 it does not.
- The `is_all_day` flag is carried on events but, as in the source, never consulted.
- The sort of `all_events` by start time is not performed. `FreeBusy.FreeSlotsDependOnlyOnEventSet` shows it cannot change the result.
- Slots.GenerateTimeSlots: requires a positive slot duration. With a zero duration `current_time` stops moving once it reaches 09:00 of a day, so the source loop does not terminate for any window that extends past such a 09:00; negative durations are not modelled.
- Slots.Generate: requires a positive slot duration, for the same reason.
- Text.ParseInt: accepts exactly an optional sign followed by ASCII digits. Python's `int()` also accepts surrounding whitespace, underscores between digits and non-ASCII decimal digits.
- Models.GetCalendarIds: inherits the `int()` restriction above.
- Bookings.Message: the exception raised for a non-integer calendar id is reduced to the error `InvalidCalendarIds`; the text `str(e)` Python returns for it (which quotes the offending segment) is not modelled, so `Message` gives no text for it.
- Bookings.CreateBooking: the non-integer calendar id exception becomes `InvalidCalendarIds`, as above. Other database exceptions in the generic handler are not modelled.
- SQLAlchemy session semantics are reduced to "booking committed or not", plus the commit a token refresh performs (`Bookings.CreateBookingAsWritten`). The token fields that refresh writes back are not reflected in `Store.calendars`.
- FreeBusy.GetFreeSlots: the free-slot search is stated for both overrun tests; the rest of the model uses the corrected generator. It equals the code as written for slot lengths up to 7 hours (`Slots.AsWrittenAgreesForShortSlots`, `FreeBusy.FreeSlotsAgreeForShortSlots`), which covers every call site: routes.py:237 and routes.py:274 use the default of 30 minutes.
- Bookings.CreateBooking: the all-or-nothing model leaves out the session commit during event creation. `Bookings.CreateBookingAsWritten` models it; see Findings.
- Bookings.BookingAllOrNothing: holds for the all-or-nothing model only; as written, a failed booking can still be committed (see Findings).
- Bookings.SelectCalendars: the database returns the selected calendars in an unspecified order, modelled as storage order.
- The primary key of a new booking and every `created_at` column.
- Auth.StoreCalendarTokens: database-assigned ids are modelled as one more than the largest id in use. The exception path that rolls back and returns `None` is not modelled.
- Auth.RegisterUser: the exception path that rolls back and returns the exception text is not modelled.
- `SharedLink.description` of `None` and a booking description of `None` (Python would interpolate the text "None") are modelled as strings.
- routes.py and the browser scripts (HTTP, session, form checks, DOM) are not part of this model.
- app.py, config.py, generate_requirements.py and main.py are not part of this model. main.py imports a `start_scheduler` that calendar_sync.py does not define.

## Findings

| source | as written | input that shows it | evidently intended | confidence | as-written member | corrected member |
|---|---|---|---|---|---|---|
| calendar_sync.py:212-254 | The booking is flushed before the events are created. `create_calendar_event` calls `refresh_calendar_token`, whose `db.session.commit()` (auth.py:111) persists that booking. The rollback at line 254 after a later failure then no longer removes it. | two linked calendars: the first has an expired token and a working refresh token and accepts the event; creating the event in the second fails. The caller gets "Failed to create events in all calendars", but a booking with no event ids is committed. | a failed booking leaves nothing committed | plausible, not executed | Bookings.PartialBookingCommitted | Bookings.CreateBooking |
| calendar_sync.py:169 | `slot_end.time() > day_end.time()` compares only the time of day of the slot's end with 17:00, so a slot ending at or after midnight passes the check | slot duration 450 minutes, window Monday 00:00 to Monday 16:40: after the 09:00–16:30 slot the code emits 16:30–00:00 (Tuesday) | a slot must end by 17:00 of the day it starts (`slot_end > day_end` on full datetimes) | not executed | Slots.MidnightOverrunAsWritten | Slots.GenerateTimeSlots |

`Slots.GenerateTimeSlotsAsWritten` models the code as written. `Slots.AsWrittenAgreesForShortSlots` proves that the two versions differ only for slots longer than 7 hours. The free-slot computation is stated for both versions; the rest of the model uses the corrected generator.
`Bookings.CreateBookingAsWritten` models the booking with the session commit of a token refresh, together with `Bookings.CreateCalendarEvent` and `Bookings.DueTokenCommits`. `Bookings.PartialBookingCommitted` exhibits the partial commit. `Bookings.CreateBooking` is the all-or-nothing behaviour, proved by `Bookings.BookingAllOrNothing`.

=== FILE: auth.dfy ===
/**
 * Token bookkeeping for connected calendars and user registration.
 * The clock is a whole number of seconds; the Microsoft identity platform's refresh
 * call and the password hash are function parameters.
 */
module Auth {
  import opened Wrappers
  import opened Models

  /** A stored token must be valid for strictly more than five minutes to be used as is. */
  const RefreshMargin: int := 300
  /** Lifetime assumed when a token response carries no `expires_in`. */
  const DefaultExpiresIn: int := 3600

  /**
   * A token response, as far as it is read: each field is present or absent.
   * A failed request (no response at all) is `None` at the call site.
   */
  datatype TokenResponse = TokenResponse(
    accessToken: Option<string>,
    refreshToken: Option<string>,
    expiresIn: Option<int>)

  /** The expiry recorded for a response received at `now`. */
  function ExpiryAfter(response: TokenResponse, now: int): (expiry: int)
    ensures response.expiresIn.None? ==> expiry == now + DefaultExpiresIn
    ensures response.expiresIn.Some? ==> expiry - now == response.expiresIn.value
  {
    now + response.expiresIn.GetOr(DefaultExpiresIn)
  }

  /** The stored access token can be used without refreshing. */
  predicate TokenStillValid(calendar: Calendar, now: int)
  {
    calendar.tokenExpiry.Some? && calendar.tokenExpiry.value > now + RefreshMargin
  }

  /** The refresh path is taken: no expiry on record, or it falls within five minutes from now. */
  predicate NeedsRefresh(calendar: Calendar, now: int)
  {
    match calendar.tokenExpiry
    case None => true
    case Some(expiry) => expiry - now <= RefreshMargin
  }

  /** A stored refresh token Python would treat as true (set and non-empty). */
  predicate HasRefreshToken(calendar: Calendar)
  {
    calendar.refreshToken.Some? && calendar.refreshToken.value != ""
  }

  /**
   * The outcome of `refresh_calendar_token`: the calendar record afterwards, the token
   * handed back (`None` on failure), the refresh token sent to the identity platform,
   * if a refresh was attempted, and whether the database session was committed.
   */
  datatype Refresh = Refresh(calendar: Calendar, token: Option<string>, requested: Option<string>, committed: bool)

  /** `refresh_calendar_token` at time `now`, with `acquire` standing for the refresh request. */
  function RefreshCalendarToken(calendar: Calendar, now: int, acquire: string -> Option<TokenResponse>): (r: Refresh)
    ensures r.requested.Some? <==> NeedsRefresh(calendar, now) && HasRefreshToken(calendar)
    ensures r.requested.Some? ==> r.requested == calendar.refreshToken
    ensures !NeedsRefresh(calendar, now) ==> r.token == calendar.accessToken && r.calendar == calendar
    ensures NeedsRefresh(calendar, now) && !HasRefreshToken(calendar) ==> r.token.None? && r.calendar == calendar
    ensures NeedsRefresh(calendar, now) && r.token.None? ==> r.calendar == calendar
    ensures r.committed <==> r.requested.Some? && r.token.Some?
    ensures r.calendar != calendar ==> r.requested.Some? && r.token.Some? && r.calendar.accessToken == r.token
    ensures r.calendar.(accessToken := calendar.accessToken, refreshToken := calendar.refreshToken,
                        tokenExpiry := calendar.tokenExpiry) == calendar
  {
    if TokenStillValid(calendar, now) then Refresh(calendar, calendar.accessToken, None, false)
    else if !HasRefreshToken(calendar) then Refresh(calendar, None, None, false)
    else
      var requested := calendar.refreshToken.value;
      match acquire(requested)
      case None => Refresh(calendar, None, Some(requested), false)
      case Some(response) =>
        if response.accessToken.None? then Refresh(calendar, None, Some(requested), false)
        else
          var refreshed := calendar.(
            accessToken := response.accessToken,
            refreshToken := if response.refreshToken.Some? then response.refreshToken else calendar.refreshToken,
            tokenExpiry := Some(ExpiryAfter(response, now)));
          Refresh(refreshed, response.accessToken, Some(requested), true)
  }

  /** The two tests are complementary: the stored token is used exactly when no refresh is needed. */
  lemma ValidIffNoRefresh(calendar: Calendar, now: int)
    ensures TokenStillValid(calendar, now) <==> !NeedsRefresh(calendar, now)
  {
  }

  /** Expiry exactly five minutes away already triggers a refresh; one second later it does not. */
  lemma RefreshBoundary(calendar: Calendar, now: int, acquire: string -> Option<TokenResponse>)
    requires HasRefreshToken(calendar)
    ensures calendar.tokenExpiry == Some(now + RefreshMargin) ==>
              RefreshCalendarToken(calendar, now, acquire).requested.Some?
    ensures calendar.tokenExpiry == Some(now + RefreshMargin + 1) ==>
              RefreshCalendarToken(calendar, now, acquire) == Refresh(calendar, calendar.accessToken, None, false)
  {
  }

  /** While the stored token is valid the identity platform is never consulted. */
  lemma ValidTokenIgnoresProvider(calendar: Calendar, now: int, a: string -> Option<TokenResponse>,
                                  b: string -> Option<TokenResponse>)
    requires !NeedsRefresh(calendar, now)
    ensures RefreshCalendarToken(calendar, now, a) == RefreshCalendarToken(calendar, now, b)
  {
  }

  /**
   * A response carrying an access token is stored: the access token is replaced, the refresh
   * token only when the response has one, and the expiry is `now + expires_in` (default an hour).
   */
  lemma RefreshStoresResponse(calendar: Calendar, now: int, acquire: string -> Option<TokenResponse>)
    requires NeedsRefresh(calendar, now) && HasRefreshToken(calendar)
    requires acquire(calendar.refreshToken.value).Some?
    requires acquire(calendar.refreshToken.value).value.accessToken.Some?
    ensures var response := acquire(calendar.refreshToken.value).value;
            var r := RefreshCalendarToken(calendar, now, acquire);
            && r.token == response.accessToken
            && r.calendar.accessToken == response.accessToken
            && (response.refreshToken.Some? ==> r.calendar.refreshToken == response.refreshToken)
            && (response.refreshToken.None? ==> r.calendar.refreshToken == calendar.refreshToken)
            && r.calendar.tokenExpiry == Some(now + response.expiresIn.GetOr(DefaultExpiresIn))
  {
  }

  /**
   * A successful refresh whose new token lives longer than five minutes makes the next call
   * at the same time use the stored token: no second request, the same token, no commit.
   */
  lemma RefreshedTokenIsReused(calendar: Calendar, now: int, acquire: string -> Option<TokenResponse>,
                               again: string -> Option<TokenResponse>)
    requires NeedsRefresh(calendar, now) && HasRefreshToken(calendar)
    requires acquire(calendar.refreshToken.value).Some?
    requires acquire(calendar.refreshToken.value).value.accessToken.Some?
    requires acquire(calendar.refreshToken.value).value.expiresIn.GetOr(DefaultExpiresIn) > RefreshMargin
    ensures var first := RefreshCalendarToken(calendar, now, acquire);
            var second := RefreshCalendarToken(first.calendar, now, again);
            && first.committed
            && second == Refresh(first.calendar, first.token, None, false)
  {
    RefreshStoresResponse(calendar, now, acquire);
  }

  /** A missing response, or one without an access token, fails and leaves the record as it was. */
  lemma FailedRefreshChangesNothing(calendar: Calendar, now: int, acquire: string -> Option<TokenResponse>)
    requires NeedsRefresh(calendar, now) && HasRefreshToken(calendar)
    requires acquire(calendar.refreshToken.value).None?
             || acquire(calendar.refreshToken.value).value.accessToken.None?
    ensures RefreshCalendarToken(calendar, now, acquire).token.None?
    ensures RefreshCalendarToken(calendar, now, acquire).calendar == calendar
  {
  }

  // ---------------------------------------------------------------------------------------
  // Calendar upsert
  // ---------------------------------------------------------------------------------------

  /** Calendars are looked up by owner and Outlook calendar id. */
  predicate SameKey(c: Calendar, userId: int, outlookId: string)
  {
    c.userId == userId && c.outlookId == outlookId
  }

  /** No two stored calendars share an owner and an Outlook id. */
  predicate UniqueKeys(calendars: seq<Calendar>)
  {
    forall i, j :: 0 <= i < j < |calendars| ==>
      !SameKey(calendars[j], calendars[i].userId, calendars[i].outlookId)
  }

  /** The position of the first calendar with the given key, if any. */
  function FindCalendar(calendars: seq<Calendar>, userId: int, outlookId: string): (r: Option<nat>)
    ensures r.Some? ==> r.value < |calendars| && SameKey(calendars[r.value], userId, outlookId)
    ensures r.Some? ==> forall i :: 0 <= i < r.value ==> !SameKey(calendars[i], userId, outlookId)
    ensures r.None? ==> forall i :: 0 <= i < |calendars| ==> !SameKey(calendars[i], userId, outlookId)
  {
    if |calendars| == 0 then None
    else if SameKey(calendars[0], userId, outlookId) then Some(0)
    else match FindCalendar(calendars[1..], userId, outlookId)
      case None => None
      case Some(i) => Some(i + 1)
  }

  /**
   * A primary key for a new row of `rows`, whose key is `key`: larger than every key in use,
   * and 1 in an empty table.
   */
  function NextId<T>(rows: seq<T>, key: T -> int): (id: int)
    ensures forall i :: 0 <= i < |rows| ==> key(rows[i]) < id
    ensures |rows| == 0 ==> id == 1
  {
    if |rows| == 0 then 1
    else
      var rest := NextId(rows[1..], key);
      assert forall i :: 1 <= i < |rows| ==> rows[i] == rows[1..][i - 1];
      if key(rows[0]) < rest then rest else key(rows[0]) + 1
  }

  /** The record `store_calendar_tokens` writes: the calendar name and everything from the token response. */
  function WithTokens(c: Calendar, name: string, tokens: TokenResponse, now: int): Calendar
  {
    c.(name := name, accessToken := tokens.accessToken, refreshToken := tokens.refreshToken,
       tokenExpiry := Some(ExpiryAfter(tokens, now)), lastSynced := Some(now))
  }

  /**
   * `store_calendar_tokens`: the calendars afterwards and the record written. An existing
   * calendar with the same owner and Outlook id is updated in place (an absent refresh token
   * in the response clears the stored one); otherwise one new calendar is appended.
   */
  function StoreCalendarTokens(calendars: seq<Calendar>, userId: int, name: string, outlookId: string,
                               tokens: TokenResponse, now: int): (r: (seq<Calendar>, Calendar))
    ensures SameKey(r.1, userId, outlookId) && r.1.name == name
    ensures r.1.accessToken == tokens.accessToken && r.1.refreshToken == tokens.refreshToken
    ensures r.1.tokenExpiry == Some(ExpiryAfter(tokens, now)) && r.1.lastSynced == Some(now)
    ensures FindCalendar(calendars, userId, outlookId).Some? ==>
              var i := FindCalendar(calendars, userId, outlookId).value;
              |r.0| == |calendars| && r.0[i] == r.1 && r.1.id == calendars[i].id
              && r.1.active == calendars[i].active
              && forall j :: 0 <= j < |calendars| && j != i ==> r.0[j] == calendars[j]
    ensures FindCalendar(calendars, userId, outlookId).None? ==>
              r.0 == calendars + [r.1] && r.1.active
              && forall j :: 0 <= j < |calendars| ==> calendars[j].id != r.1.id
  {
    match FindCalendar(calendars, userId, outlookId)
    case Some(i) =>
      var updated := WithTokens(calendars[i], name, tokens, now);
      (calendars[i := updated], updated)
    case None =>
      var blank := Calendar(NextId(calendars, (c: Calendar) => c.id), userId, name, outlookId, None, None, None, None, true);
      var created := WithTokens(blank, name, tokens, now);
      (calendars + [created], created)
  }

  /** The upsert never creates a second calendar for the same owner and Outlook id. */
  lemma StoreKeepsKeysUnique(calendars: seq<Calendar>, userId: int, name: string, outlookId: string,
                             tokens: TokenResponse, now: int)
    requires UniqueKeys(calendars)
    ensures UniqueKeys(StoreCalendarTokens(calendars, userId, name, outlookId, tokens, now).0)
  {
    var after := StoreCalendarTokens(calendars, userId, name, outlookId, tokens, now).0;
    forall i, j | 0 <= i < j < |after|
      ensures !SameKey(after[j], after[i].userId, after[i].outlookId)
    {
      if j == |calendars| {
        assert !SameKey(calendars[i], userId, outlookId);
      } else {
        assert SameKey(after[i], calendars[i].userId, calendars[i].outlookId);
        assert SameKey(after[j], calendars[j].userId, calendars[j].outlookId);
      }
    }
  }

  /** Storing the same calendar twice leaves a single record for it. */
  lemma StoreTwiceUpdates(calendars: seq<Calendar>, userId: int, name: string, outlookId: string,
                          tokens: TokenResponse, now: int, later: TokenResponse, laterNow: int)
    ensures var first := StoreCalendarTokens(calendars, userId, name, outlookId, tokens, now).0;
            |StoreCalendarTokens(first, userId, name, outlookId, later, laterNow).0| == |first|
  {
    var first := StoreCalendarTokens(calendars, userId, name, outlookId, tokens, now).0;
    match FindCalendar(calendars, userId, outlookId)
    case Some(i) =>
      assert SameKey(first[i], userId, outlookId);
    case None =>
      assert SameKey(first[|calendars|], userId, outlookId);
  }

  // ---------------------------------------------------------------------------------------
  // Registration
  // ---------------------------------------------------------------------------------------

  /** The message returned when the username or the email is already registered. */
  const AlreadyExists: string := "Username or email already exists"

  /** Some stored user has this username or this email. */
  predicate Taken(users: seq<User>, username: string, email: string)
  {
    exists i :: 0 <= i < |users| && (users[i].username == username || users[i].email == email)
  }

  /** No two users share a username, and no two share an email. */
  predicate UniqueUsers(users: seq<User>)
  {
    forall i, j :: 0 <= i < j < |users| ==>
      users[i].username != users[j].username && users[i].email != users[j].email
  }

  /**
   * `register_user`: the users afterwards and either the new user or the error message.
   * `hash` stands for the password-hashing function.
   */
  function RegisterUser(users: seq<User>, username: string, email: string, password: string,
                        hash: string -> string): (r: (seq<User>, Result<User, string>))
    ensures r.1.Err? <==> Taken(users, username, email)
    ensures r.1.Err? ==> r.1.error == AlreadyExists && r.0 == users
    ensures r.1.Ok? ==> r.0 == users + [r.1.value]
    ensures r.1.Ok? ==> r.1.value.username == username && r.1.value.email == email
                        && r.1.value.passwordHash == hash(password)
  {
    if Taken(users, username, email) then (users, Err(AlreadyExists))
    else
      var user := User(NextId(users, (u: User) => u.id), username, email, hash(password));
      (users + [user], Ok(user))
  }

  /** Registration keeps usernames and emails unique, and gives the new user a fresh id. */
  lemma RegisterKeepsUsersUnique(users: seq<User>, username: string, email: string, password: string,
                                 hash: string -> string)
    requires UniqueUsers(users)
    ensures UniqueUsers(RegisterUser(users, username, email, password, hash).0)
    ensures var r := RegisterUser(users, username, email, password, hash);
            r.1.Ok? ==> forall i :: 0 <= i < |users| ==> users[i].id != r.1.value.id
  {
    var after := RegisterUser(users, username, email, password, hash).0;
    if !Taken(users, username, email) {
      forall i, j | 0 <= i < j < |after|
        ensures after[i].username != after[j].username && after[i].email != after[j].email
      {
        if j == |users| {
          assert !(users[i].username == username || users[i].email == email);
        }
      }
    }
  }
}

=== FILE: bookings.dfy ===
/**
 * `create_booking`: look up the shared link, create one Outlook event per linked calendar,
 * and commit the booking only when every calendar accepted its event.
 * The event-creation call is a function parameter returning the new event's id, or `None`
 * when the call failed or the response carried no id. `CreateBookingAsWritten` also tracks
 * the session commit a token refresh performs during event creation.
 */
module Bookings {
  import opened Wrappers
  import opened Text
  import opened Models
  import opened Auth

  /** What the database holds, as far as booking reads and writes it. */
  datatype Store = Store(links: seq<SharedLink>, calendars: seq<Calendar>, bookings: seq<Booking>)

  /** The booking form as submitted; times are whole minutes. */
  datatype Request = Request(
    sharedLinkId: int,
    customerName: string,
    customerEmail: string,
    startTime: int,
    endTime: int,
    subject: string,
    description: string)

  /** The event sent to every calendar: subject, text body, times and the customer as required attendee. */
  datatype EventPayload = EventPayload(
    subject: string,
    body: string,
    startTime: int,
    endTime: int,
    attendeeEmail: string,
    attendeeName: string)

  datatype BookingError = LinkNotFound | InvalidCalendarIds | EventsNotCreated

  /**
   * The error text returned alongside `None`. The two expected failures carry fixed messages;
   * for an invalid calendar id the caller gets the exception's own text, which is not modelled.
   */
  function Message(e: BookingError): (m: Option<string>)
    ensures m.Some? <==> e != InvalidCalendarIds
    ensures e == LinkNotFound ==> m == Some("Shared link not found")
    ensures e == EventsNotCreated ==> m == Some("Failed to create events in all calendars")
  {
    match e
    case LinkNotFound => Some("Shared link not found")
    case InvalidCalendarIds => None
    case EventsNotCreated => Some("Failed to create events in all calendars")
  }

  /** The event body names the customer and their email, then a blank line, then the description. */
  function EventBody(name: string, email: string, description: string): (body: string)
    ensures |body| == 21 + |name| + |email| + |description|
    ensures body[..16] == "Booking made by " && body[16..16 + |name|] == name
    ensures body[16 + |name|..|body| - |description|] == " (" + email + ")\n\n"
    ensures body[|body| - |description|..] == description
  {
    "Booking made by " + name + " (" + email + ")\n\n" + description
  }

  /** The event data built for every calendar: the request's subject and times, the customer as attendee. */
  function PayloadFor(req: Request): (p: EventPayload)
    ensures p.subject == req.subject && p.startTime == req.startTime && p.endTime == req.endTime
    ensures p.attendeeEmail == req.customerEmail && p.attendeeName == req.customerName
    ensures p.body == EventBody(req.customerName, req.customerEmail, req.description)
  {
    EventPayload(req.subject, EventBody(req.customerName, req.customerEmail, req.description),
                 req.startTime, req.endTime, req.customerEmail, req.customerName)
  }

  /** `SharedLink.query.get(id)`: the link with this primary key, if any. */
  function FindLink(links: seq<SharedLink>, id: int): (r: Option<SharedLink>)
    ensures r.Some? ==> r.value in links && r.value.id == id
    ensures r.None? ==> forall i :: 0 <= i < |links| ==> links[i].id != id
  {
    if |links| == 0 then None
    else if links[0].id == id then Some(links[0])
    else FindLink(links[1..], id)
  }

  /** The calendars whose id is in `ids`, in storage order, each once. */
  function SelectCalendars(calendars: seq<Calendar>, ids: seq<int>): (r: seq<Calendar>)
    ensures |r| <= |calendars|
    ensures forall c :: c in r <==> c in calendars && c.id in ids
    ensures multiset(r) <= multiset(calendars)
  {
    if |calendars| == 0 then []
    else
      var rest := SelectCalendars(calendars[1..], ids);
      assert calendars == [calendars[0]] + calendars[1..];
      assert forall c :: c in calendars <==> c == calendars[0] || c in calendars[1..];
      if calendars[0].id in ids then [calendars[0]] + rest else rest
  }

  /**
   * The outcome of creating the event in each calendar in turn: every id, or the position
   * of the first calendar that failed together with the ids already created before it.
   */
  datatype Creation = AllCreated(ids: seq<string>) | FailedAt(index: nat, created: seq<string>)

  /** Event creation stops at the first failure; events created before it are not deleted. */
  function CreateEvents(calendars: seq<Calendar>, payload: EventPayload,
                        create: (Calendar, EventPayload) -> Option<string>): (r: Creation)
    ensures r.AllCreated? ==> |r.ids| == |calendars|
    ensures r.AllCreated? ==> forall i :: 0 <= i < |calendars| ==> create(calendars[i], payload) == Some(r.ids[i])
    ensures r.FailedAt? ==> r.index < |calendars| && create(calendars[r.index], payload).None?
    ensures r.FailedAt? ==> |r.created| == r.index
    ensures r.FailedAt? ==> forall i :: 0 <= i < r.index ==> create(calendars[i], payload) == Some(r.created[i])
  {
    if |calendars| == 0 then AllCreated([])
    else
      match create(calendars[0], payload)
      case None => FailedAt(0, [])
      case Some(id) =>
        match CreateEvents(calendars[1..], payload, create)
        case AllCreated(ids) => AllCreated([id] + ids)
        case FailedAt(k, created) => FailedAt(k + 1, [id] + created)
  }

  /** The result of `create_booking`: the store afterwards and the booking or the error. */
  datatype Outcome = Outcome(store: Store, result: Result<Booking, BookingError>)

  /** `create_booking` against `store`, with `create` standing for the Outlook event call. */
  function CreateBooking(store: Store, req: Request,
                         create: (Calendar, EventPayload) -> Option<string>): (r: Outcome)
    ensures r.result.Err? ==> r.store == store
    ensures r.result.Ok? ==> r.store == store.(bookings := store.bookings + [r.result.value])
    ensures r.result == Err(LinkNotFound) <==> FindLink(store.links, req.sharedLinkId).None?
    ensures r.result == Err(LinkNotFound) ==> Message(r.result.error) == Some("Shared link not found")
    ensures FindLink(store.links, req.sharedLinkId).Some?
            && GetCalendarIds(FindLink(store.links, req.sharedLinkId).value.calendarIds).None? ==>
              r == Outcome(store, Err(InvalidCalendarIds))
    ensures r.result.Ok? ==>
              var b := r.result.value;
              && b.sharedLinkId == req.sharedLinkId && b.customerName == req.customerName
              && b.customerEmail == req.customerEmail && b.startTime == req.startTime
              && b.endTime == req.endTime && b.subject == req.subject && b.description == req.description
  {
    match FindLink(store.links, req.sharedLinkId)
    case None => Outcome(store, Err(LinkNotFound))
    case Some(link) =>
      match GetCalendarIds(link.calendarIds)
      case None => Outcome(store, Err(InvalidCalendarIds))
      case Some(ids) =>
        match CreateEvents(SelectCalendars(store.calendars, ids), PayloadFor(req), create)
        case FailedAt(_, _) => Outcome(store, Err(EventsNotCreated))
        case AllCreated(eventIds) =>
          var booking := Booking(req.sharedLinkId, req.customerName, req.customerEmail, req.startTime,
                                 req.endTime, req.subject, req.description, Some(Join(eventIds, ',')));
          Outcome(store.(bookings := store.bookings + [booking]), Ok(booking))
  }

  /** Every calendar returns an id for the payload. */
  predicate EveryCalendarAccepts(calendars: seq<Calendar>, payload: EventPayload,
                                 create: (Calendar, EventPayload) -> Option<string>)
  {
    forall i :: 0 <= i < |calendars| ==> create(calendars[i], payload).Some?
  }

  /** The calendars a booking through this request's link goes to, once the link and its ids are known. */
  function TargetCalendars(store: Store, req: Request): seq<Calendar>
    requires FindLink(store.links, req.sharedLinkId).Some?
    requires GetCalendarIds(FindLink(store.links, req.sharedLinkId).value.calendarIds).Some?
  {
    SelectCalendars(store.calendars, GetCalendarIds(FindLink(store.links, req.sharedLinkId).value.calendarIds).value)
  }

  /**
   * The booking succeeds exactly when the link exists, its id list parses and every linked
   * calendar returns an event id; if any calendar fails, the error is reported and nothing
   * is committed.
   */
  lemma {:induction false} BookingAllOrNothing(store: Store, req: Request,
                                               create: (Calendar, EventPayload) -> Option<string>)
    requires FindLink(store.links, req.sharedLinkId).Some?
    requires GetCalendarIds(FindLink(store.links, req.sharedLinkId).value.calendarIds).Some?
    ensures CreateBooking(store, req, create).result.Ok? <==>
              EveryCalendarAccepts(TargetCalendars(store, req), PayloadFor(req), create)
    ensures CreateBooking(store, req, create).result.Err? ==>
              CreateBooking(store, req, create) == Outcome(store, Err(EventsNotCreated))
    ensures CreateBooking(store, req, create).result.Err? ==>
              Message(CreateBooking(store, req, create).result.error)
                == Some("Failed to create events in all calendars")
  {
    var calendars := TargetCalendars(store, req);
    var creation := CreateEvents(calendars, PayloadFor(req), create);
    if creation.FailedAt? {
      assert create(calendars[creation.index], PayloadFor(req)).None?;
      assert CreateBooking(store, req, create) == Outcome(store, Err(EventsNotCreated));
    } else {
      forall i | 0 <= i < |calendars| ensures create(calendars[i], PayloadFor(req)).Some? {
        assert create(calendars[i], PayloadFor(req)) == Some(creation.ids[i]);
      }
    }
  }

  /**
   * On success the stored event ids are the ids the calendars returned, comma-joined in
   * calendar order: splitting the field gives them back (ids never contain a comma).
   */
  lemma {:induction false} BookingRecordsEventIds(store: Store, req: Request,
                                                  create: (Calendar, EventPayload) -> Option<string>)
    requires CreateBooking(store, req, create).result.Ok?
    requires forall c: Calendar, p: EventPayload :: create(c, p).Some? ==> ',' !in create(c, p).value
    ensures var calendars := TargetCalendars(store, req);
            var stored := CreateBooking(store, req, create).result.value.outlookEventIds;
            && stored.Some?
            && (|calendars| == 0 ==> stored.value == "")
            && (|calendars| > 0 ==>
                  |Split(stored.value, ',')| == |calendars|
                  && forall i :: 0 <= i < |calendars| ==>
                       create(calendars[i], PayloadFor(req)) == Some(Split(stored.value, ',')[i]))
  {
    var calendars := TargetCalendars(store, req);
    var creation := CreateEvents(calendars, PayloadFor(req), create);
    assert creation.AllCreated?;
    var ids := creation.ids;
    if |calendars| > 0 {
      forall i | 0 <= i < |ids| ensures ',' !in ids[i] {
        assert create(calendars[i], PayloadFor(req)) == Some(ids[i]);
      }
      SplitJoin(ids, ',');
    }
  }

  // ---------------------------------------------------------------------------------------
  // The session commit inside event creation
  // ---------------------------------------------------------------------------------------

  /**
   * One call of `create_calendar_event`: the new event's id, if any, and whether obtaining
   * the access token committed the database session.
   */
  datatype Attempt = Attempt(eventId: Option<string>, committed: bool)

  /**
   * `create_calendar_event` at time `now`: the token comes from `refresh_calendar_token`
   * (`acquire` is the refresh request); a missing or empty token fails before any request,
   * otherwise `post` stands for the Graph call and returns the new event's id or `None`.
   */
  function CreateCalendarEvent(calendar: Calendar, payload: EventPayload, now: int,
                               acquire: string -> Option<TokenResponse>,
                               post: (Calendar, string, EventPayload) -> Option<string>): (a: Attempt)
    ensures a.committed <==> RefreshCalendarToken(calendar, now, acquire).committed
    ensures var refresh := RefreshCalendarToken(calendar, now, acquire);
            refresh.token.Some? && refresh.token.value != "" ==>
              a.eventId == post(refresh.calendar, refresh.token.value, payload)
    ensures var refresh := RefreshCalendarToken(calendar, now, acquire);
            a.eventId.Some? ==>
              && refresh.token.Some? && refresh.token.value != ""
              && a.eventId == post(refresh.calendar, refresh.token.value, payload)
    ensures !NeedsRefresh(calendar, now) && calendar.accessToken.Some? && calendar.accessToken.value != "" ==>
              a == Attempt(post(calendar, calendar.accessToken.value, payload), false)
  {
    var refresh := RefreshCalendarToken(calendar, now, acquire);
    if refresh.token.None? || refresh.token.value == "" then Attempt(None, refresh.committed)
    else Attempt(post(refresh.calendar, refresh.token.value, payload), refresh.committed)
  }

  /** A calendar whose token is due and whose refresh succeeds commits the session while creating its event. */
  lemma DueTokenCommits(calendar: Calendar, payload: EventPayload, now: int,
                        acquire: string -> Option<TokenResponse>,
                        post: (Calendar, string, EventPayload) -> Option<string>)
    requires NeedsRefresh(calendar, now) && HasRefreshToken(calendar)
    requires acquire(calendar.refreshToken.value).Some?
    requires acquire(calendar.refreshToken.value).value.accessToken.Some?
    ensures CreateCalendarEvent(calendar, payload, now, acquire, post).committed
  {
    RefreshStoresResponse(calendar, now, acquire);
  }

  /** The event ids alone, as the all-or-nothing model sees the attempts. */
  function EventIdOf(attempt: (Calendar, EventPayload) -> Attempt): (create: (Calendar, EventPayload) -> Option<string>)
    ensures forall c, p :: create(c, p) == attempt(c, p).eventId
  {
    (c, p) => attempt(c, p).eventId
  }

  /** The booking row flushed at the start of `create_booking`, before any event id is known. */
  function PendingBooking(req: Request): (b: Booking)
    ensures b.outlookEventIds.None?
    ensures b.sharedLinkId == req.sharedLinkId && b.customerName == req.customerName
            && b.customerEmail == req.customerEmail && b.startTime == req.startTime
            && b.endTime == req.endTime && b.subject == req.subject && b.description == req.description
  {
    Booking(req.sharedLinkId, req.customerName, req.customerEmail, req.startTime, req.endTime,
            req.subject, req.description, None)
  }

  /** Some attempt among the first `upto + 1` calendars committed the session. */
  predicate CommittedUpTo(calendars: seq<Calendar>, upto: nat, payload: EventPayload,
                          attempt: (Calendar, EventPayload) -> Attempt)
    requires upto < |calendars|
  {
    exists i :: 0 <= i <= upto && attempt(calendars[i], payload).committed
  }

  /**
   * `create_booking` as written: the booking is flushed before the events are created, and a
   * token refresh inside `create_calendar_event` commits the session. When a later calendar
   * fails, the rollback can no longer remove the committed booking, which stays with no event
   * ids while the caller is told that the booking failed.
   */
  function CreateBookingAsWritten(store: Store, req: Request,
                                  attempt: (Calendar, EventPayload) -> Attempt): (r: Outcome)
    ensures r.result == CreateBooking(store, req, EventIdOf(attempt)).result
    ensures r.result.Ok? ==> r == CreateBooking(store, req, EventIdOf(attempt))
    ensures FindLink(store.links, req.sharedLinkId).Some?
            && GetCalendarIds(FindLink(store.links, req.sharedLinkId).value.calendarIds).Some? ==>
              var calendars := TargetCalendars(store, req);
              var creation := CreateEvents(calendars, PayloadFor(req), EventIdOf(attempt));
              creation.FailedAt? ==>
                (r.store != store <==>
                   exists i :: 0 <= i <= creation.index && attempt(calendars[i], PayloadFor(req)).committed)
    ensures r.store != store ==>
              || r.result.Ok?
              || (r.result == Err(EventsNotCreated)
                  && r.store == store.(bookings := store.bookings + [PendingBooking(req)]))
  {
    match FindLink(store.links, req.sharedLinkId)
    case None => Outcome(store, Err(LinkNotFound))
    case Some(link) =>
      match GetCalendarIds(link.calendarIds)
      case None => Outcome(store, Err(InvalidCalendarIds))
      case Some(ids) =>
        var calendars := SelectCalendars(store.calendars, ids);
        var payload := PayloadFor(req);
        match CreateEvents(calendars, payload, EventIdOf(attempt))
        case FailedAt(k, _) =>
          if CommittedUpTo(calendars, k, payload, attempt) then
            Outcome(store.(bookings := store.bookings + [PendingBooking(req)]), Err(EventsNotCreated))
          else Outcome(store, Err(EventsNotCreated))
        case AllCreated(eventIds) =>
          var booking := Booking(req.sharedLinkId, req.customerName, req.customerEmail, req.startTime,
                                 req.endTime, req.subject, req.description, Some(Join(eventIds, ',')));
          Outcome(store.(bookings := store.bookings + [booking]), Ok(booking))
  }

  /** When no event creation commits the session, the code as written is all-or-nothing. */
  lemma NoCommitMeansAllOrNothing(store: Store, req: Request, attempt: (Calendar, EventPayload) -> Attempt)
    requires forall c, p :: !attempt(c, p).committed
    ensures CreateBookingAsWritten(store, req, attempt) == CreateBooking(store, req, EventIdOf(attempt))
  {
  }

  /**
   * Two linked calendars: the first refreshes its token (committing the session) and
   * accepts the event, the second refuses it. The caller is told the booking failed,
   * yet a booking without event ids has been committed.
   */
  lemma PartialBookingCommitted(store: Store, req: Request, attempt: (Calendar, EventPayload) -> Attempt)
    requires FindLink(store.links, req.sharedLinkId).Some?
    requires GetCalendarIds(FindLink(store.links, req.sharedLinkId).value.calendarIds).Some?
    requires |TargetCalendars(store, req)| == 2
    requires attempt(TargetCalendars(store, req)[0], PayloadFor(req)).eventId.Some?
    requires attempt(TargetCalendars(store, req)[0], PayloadFor(req)).committed
    requires attempt(TargetCalendars(store, req)[1], PayloadFor(req)).eventId.None?
    ensures CreateBookingAsWritten(store, req, attempt).result == Err(EventsNotCreated)
    ensures CreateBookingAsWritten(store, req, attempt).store.bookings == store.bookings + [PendingBooking(req)]
    ensures CreateBooking(store, req, EventIdOf(attempt)).store == store
  {
    var calendars := TargetCalendars(store, req);
    var payload := PayloadFor(req);
    var creation := CreateEvents(calendars, payload, EventIdOf(attempt));
    assert creation == FailedAt(1, [attempt(calendars[0], payload).eventId.value]) by {
      assert calendars[1..][0] == calendars[1];
      assert CreateEvents(calendars[1..], payload, EventIdOf(attempt)) == FailedAt(0, []);
    }
    assert CommittedUpTo(calendars, 1, payload, attempt);
  }
}

=== FILE: clock.dfy ===
/**
 * Wall-clock arithmetic on timestamps counted in whole minutes in one fixed UTC
 * offset. Minute 0 is midnight at the start of Monday 1 January 2024, so day 0
 * is a Monday and weekdays are numbered as Python's `datetime.weekday()`
 * (Monday = 0, Sunday = 6).
 */
module Clock {

  const MinutesPerDay: int := 1440

  /** Working hours used by the slot generator: 09:00 to 17:00. */
  const WorkingStart: int := 9 * 60
  const WorkingEnd: int := 17 * 60

  /** The calendar day a timestamp falls on (days since the epoch, rounded down). */
  function DayOf(t: int): int
  {
    t / MinutesPerDay
  }

  /** Minutes since midnight: Python's `t.time()` at minute precision. */
  function TimeOfDay(t: int): (m: int)
    ensures 0 <= m < MinutesPerDay
  {
    t % MinutesPerDay
  }

  /** Midnight at the start of the day of `t`. */
  function Midnight(t: int): (m: int)
    ensures m <= t < m + MinutesPerDay
    ensures t == m + TimeOfDay(t)
    ensures TimeOfDay(m) == 0 && DayOf(m) == DayOf(t)
  {
    DayOf(t) * MinutesPerDay
  }

  /** Midnight at the start of the following day: `datetime(y, m, d) + timedelta(days=1)`. */
  function NextMidnight(t: int): (m: int)
    ensures t < m <= t + MinutesPerDay
    ensures m - Midnight(t) == MinutesPerDay
    ensures TimeOfDay(m) == 0 && DayOf(m) == DayOf(t) + 1
  {
    Midnight(t) + MinutesPerDay
  }

  /** Python's `weekday()`: 0 for Monday up to 6 for Sunday. */
  function Weekday(t: int): (w: int)
    ensures 0 <= w < 7
  {
    DayOf(t) % 7
  }

  /** Monday to Friday. */
  predicate IsWorkday(t: int)
  {
    Weekday(t) < 5
  }

  /** Multiplying by a positive length keeps order. */
  lemma {:induction false} ScaleMonotone(a: int, b: int, d: int)
    requires a <= b && d > 0
    ensures a * d <= b * d
    decreases b - a
  {
    if a < b {
      ScaleMonotone(a, b - 1, d);
      assert (b - 1) * d + d == b * d;
    }
  }

  /** Distinct cells `[from + i * d, from + (i + 1) * d)` of a lattice of step `d` do not overlap. */
  lemma LatticeCellsDisjoint(from: int, d: int, i: int, k: int)
    requires d > 0 && i != k
    ensures from + (i + 1) * d <= from + k * d || from + (k + 1) * d <= from + i * d
  {
    if i < k {
      ScaleMonotone(i + 1, k, d);
    } else {
      ScaleMonotone(k + 1, i, d);
    }
  }
}

=== FILE: free_busy.dfy ===
/**
 * `get_free_slots`: gathers the events of several calendars, keeps those whose
 * `showAs` status blocks time, and keeps the generated slots that no such event
 * overlaps. Each calendar's fetch is an input: `None` when the fetch failed.
 */
module FreeBusy {
  import opened Wrappers
  import opened Clock
  import opened Slots

  /** Microsoft Graph's `showAs` status of an event. */
  datatype ShowAs = Free | Tentative | Busy | Oof | WorkingElsewhere | Unknown

  /** The statuses that block a slot: busy, tentative, oof and workingElsewhere. */
  predicate Blocks(status: ShowAs)
  {
    status == Busy || status == Tentative || status == Oof || status == WorkingElsewhere
  }

  /** A calendar event, with start and end in the same minutes as the slots. */
  datatype Event = Event(start: int, end: int, isAllDay: bool, showAs: ShowAs)

  /** Half-open overlap: the slot starts before the event ends and ends after it starts. */
  predicate Overlaps(slot: Slot, event: Event)
  {
    slot.start < event.end && slot.end > event.start
  }

  /** The events of one fetch that block time, in fetched order. */
  function BlockingEvents(events: seq<Event>): seq<Event>
  {
    if |events| == 0 then []
    else (if Blocks(events[0].showAs) then [events[0]] else []) + BlockingEvents(events[1..])
  }

  /** Exactly the fetched events with a blocking status are kept. */
  lemma {:induction false} BlockingEventsMembership(events: seq<Event>, e: Event)
    ensures e in BlockingEvents(events) <==> e in events && Blocks(e.showAs)
  {
    if |events| > 0 {
      BlockingEventsMembership(events[1..], e);
      assert events == [events[0]] + events[1..];
    }
  }

  /** What one calendar adds to `all_events`: nothing if its fetch failed or found no events. */
  function Contribution(fetched: Option<seq<Event>>): seq<Event>
  {
    match fetched
    case None => []
    case Some(events) => BlockingEvents(events)
  }

  /** `all_events`: the blocking events of every calendar, calendar after calendar. */
  function BusyEvents(fetched: seq<Option<seq<Event>>>): seq<Event>
  {
    if |fetched| == 0 then []
    else BusyEvents(fetched[..|fetched| - 1]) + Contribution(fetched[|fetched| - 1])
  }

  /** The fetch succeeded and returned `e` with a blocking status. */
  predicate FetchedAsBusy(fetched: Option<seq<Event>>, e: Event)
  {
    fetched.Some? && e in fetched.value && Blocks(e.showAs)
  }

  /** One calendar contributes exactly the events its successful fetch holds with a blocking status. */
  lemma ContributionMembership(fetched: Option<seq<Event>>, e: Event)
    ensures e in Contribution(fetched) <==> FetchedAsBusy(fetched, e)
  {
    if fetched.Some? {
      BlockingEventsMembership(fetched.value, e);
    }
  }

  /** Some calendar's successful fetch holds `e` with a blocking status. */
  predicate SomeCalendarHolds(fetched: seq<Option<seq<Event>>>, e: Event)
  {
    exists i :: 0 <= i < |fetched| && FetchedAsBusy(fetched[i], e)
  }

  /** Some calendar holds `e` as busy exactly when an earlier one or the last one does. */
  lemma SomeCalendarSplit(fetched: seq<Option<seq<Event>>>, e: Event)
    requires |fetched| > 0
    ensures SomeCalendarHolds(fetched, e) <==>
              SomeCalendarHolds(fetched[..|fetched| - 1], e) || FetchedAsBusy(fetched[|fetched| - 1], e)
  {
    var init := fetched[..|fetched| - 1];
    assert forall i :: 0 <= i < |init| ==> init[i] == fetched[i];
    if exists i :: 0 <= i < |fetched| && FetchedAsBusy(fetched[i], e) {
      var i :| 0 <= i < |fetched| && FetchedAsBusy(fetched[i], e);
      if i < |init| {
        assert FetchedAsBusy(init[i], e);
      }
    }
  }

  /** An event is busy exactly when some calendar's successful fetch holds it with a blocking status. */
  lemma {:induction false} BusyEventsMembership(fetched: seq<Option<seq<Event>>>, e: Event)
    ensures e in BusyEvents(fetched) <==> exists i :: 0 <= i < |fetched| && FetchedAsBusy(fetched[i], e)
  {
    if |fetched| > 0 {
      var init, last := fetched[..|fetched| - 1], fetched[|fetched| - 1];
      BusyEventsMembership(init, e);
      ContributionMembership(last, e);
      SomeCalendarSplit(fetched, e);
      assert e in BusyEvents(fetched) <==> e in BusyEvents(init) || e in Contribution(last);
    }
  }

  /** No busy event overlaps the slot. */
  predicate IsFree(slot: Slot, busy: seq<Event>)
  {
    forall e :: e in busy ==> !Overlaps(slot, e)
  }

  /** The slots no busy event overlaps, in their original order. */
  function FreeSlots(slots: seq<Slot>, busy: seq<Event>): seq<Slot>
  {
    if |slots| == 0 then []
    else
      var last := slots[|slots| - 1];
      FreeSlots(slots[..|slots| - 1], busy) + (if IsFree(last, busy) then [last] else [])
  }

  /** Overlap law: a slot is kept exactly when it was generated and no busy event overlaps it. */
  lemma {:induction false} FreeSlotsMembership(slots: seq<Slot>, busy: seq<Event>, s: Slot)
    ensures s in FreeSlots(slots, busy) <==> s in slots && IsFree(s, busy)
  {
    if |slots| > 0 {
      var init, last := slots[..|slots| - 1], slots[|slots| - 1];
      FreeSlotsMembership(init, busy, s);
      assert slots == init + [last];
    }
  }

  /** The first loop of `get_free_slots`: extends `all_events` calendar by calendar. */
  method CollectBusyEvents(fetched: seq<Option<seq<Event>>>) returns (allEvents: seq<Event>)
    ensures allEvents == BusyEvents(fetched)
  {
    allEvents := [];
    for i := 0 to |fetched|
      invariant allEvents == BusyEvents(fetched[..i])
    {
      assert fetched[..i + 1][..i] == fetched[..i];
      if fetched[i].Some? && |fetched[i].value| > 0 {
        allEvents := allEvents + BlockingEvents(fetched[i].value);
      }
    }
    assert fetched[..|fetched|] == fetched;
  }

  /** The inner loop of `get_free_slots`: scans the events and stops at the first overlap. */
  method CheckFree(slot: Slot, allEvents: seq<Event>) returns (isFree: bool)
    ensures isFree <==> forall e :: e in allEvents ==> !Overlaps(slot, e)
  {
    isFree := true;
    var j := 0;
    while j < |allEvents|
      invariant 0 <= j <= |allEvents|
      invariant forall t :: 0 <= t < j ==> !Overlaps(slot, allEvents[t])
      invariant isFree
    {
      if slot.start < allEvents[j].end && slot.end > allEvents[j].start {
        assert allEvents[j] in allEvents;
        isFree := false;
        break;
      }
      j := j + 1;
    }
  }

  /**
   * `get_free_slots(calendars, start_date, end_date, slot_duration)` with each calendar's fetch
   * given. `test` selects the overrun check of the generator it calls: `TimeOfDayOnly` is the
   * code as written, `SameDay` the corrected check.
   */
  method GetFreeSlots(test: OverrunTest, fetched: seq<Option<seq<Event>>>, startDate: int, endDate: int,
                      duration: int)
    returns (free: seq<Slot>)
    requires duration > 0
    ensures free == FreeSlots(Generate(test, startDate, endDate, duration), BusyEvents(fetched))
    ensures BusyEvents(fetched) == [] ==> free == Generate(test, startDate, endDate, duration)
    ensures test == TimeOfDayOnly ==>
              free == FreeSlots(GenerateTimeSlotsAsWritten(startDate, endDate, duration), BusyEvents(fetched))
    ensures test == SameDay ==>
              free == FreeSlots(GenerateTimeSlots(startDate, endDate, duration), BusyEvents(fetched))
  {
    var allEvents := CollectBusyEvents(fetched);
    var allSlots := Generate(test, startDate, endDate, duration);
    if |allEvents| == 0 {
      NoBusyEventsFreesAll(allSlots);
      return allSlots;
    }
    free := [];
    for k := 0 to |allSlots|
      invariant free == FreeSlots(allSlots[..k], allEvents)
    {
      var isFree := CheckFree(allSlots[k], allEvents);
      assert allSlots[..k + 1][..k] == allSlots[..k];
      if isFree {
        free := free + [allSlots[k]];
      }
    }
    assert allSlots[..|allSlots|] == allSlots;
  }

  /**
   * For slots of at most 7 hours, `get_free_slots` as written and with the corrected overrun
   * check return the same free slots, whatever the busy events.
   */
  lemma FreeSlotsAgreeForShortSlots(startDate: int, endDate: int, duration: int, busy: seq<Event>)
    requires 0 < duration <= WorkingEnd - WorkingStart - 60
    ensures FreeSlots(GenerateTimeSlotsAsWritten(startDate, endDate, duration), busy)
            == FreeSlots(GenerateTimeSlots(startDate, endDate, duration), busy)
  {
    AsWrittenAgreesForShortSlots(startDate, endDate, duration);
  }

  /** With no busy events every slot is free: the short cut of `get_free_slots`. */
  lemma {:induction false} NoBusyEventsFreesAll(slots: seq<Slot>)
    ensures FreeSlots(slots, []) == slots
  {
    if |slots| > 0 {
      NoBusyEventsFreesAll(slots[..|slots| - 1]);
      assert slots[..|slots| - 1] + [slots[|slots| - 1]] == slots;
    }
  }

  /** The free slots keep the chronological order of the generated ones. */
  lemma {:induction false} FreeSlotsChronological(slots: seq<Slot>, busy: seq<Event>)
    requires Chronological(slots)
    ensures Chronological(FreeSlots(slots, busy))
  {
    if |slots| > 0 {
      var init := slots[..|slots| - 1];
      var last := slots[|slots| - 1];
      assert Chronological(init);
      FreeSlotsChronological(init, busy);
      var before := FreeSlots(init, busy);
      forall x | x in before ensures x.end <= last.start {
        FreeSlotsMembership(init, busy, x);
        var i :| 0 <= i < |init| && init[i] == x;
      }
    }
  }

  /** Filtering a list split in two, with one more slot at the end. */
  lemma FreeSlotsSnocAfter(a: seq<Slot>, b: seq<Slot>, last: Slot, busy: seq<Event>)
    ensures FreeSlots(a + (b + [last]), busy)
         == FreeSlots(a + b, busy) + (if IsFree(last, busy) then [last] else [])
  {
    var whole := a + (b + [last]);
    assert whole[..|whole| - 1] == a + b;
    assert whole[|whole| - 1] == last;
  }

  /** Filtering a concatenation filters each part. */
  lemma {:induction false} FreeSlotsAppend(a: seq<Slot>, b: seq<Slot>, busy: seq<Event>)
    ensures FreeSlots(a + b, busy) == FreeSlots(a, busy) + FreeSlots(b, busy)
    decreases |b|
  {
    if |b| == 0 {
      assert a + b == a;
    } else {
      var b', last := b[..|b| - 1], b[|b| - 1];
      var keep := if IsFree(last, busy) then [last] else [];
      assert FreeSlots(a + b, busy) == FreeSlots(a + b', busy) + keep by {
        assert a + b == a + (b' + [last]);
        FreeSlotsSnocAfter(a, b', last, busy);
      }
      assert FreeSlots(b, busy) == FreeSlots(b', busy) + keep by {
        assert b == [] + (b' + [last]);
        FreeSlotsSnocAfter([], b', last, busy);
        assert [] + b' == b';
      }
      FreeSlotsAppend(a, b', busy);
      AppendStep(FreeSlots(a + b, busy), FreeSlots(a + b', busy), FreeSlots(a, busy),
                 FreeSlots(b, busy), FreeSlots(b', busy), keep);
    }
  }

  /** The list algebra of the append lemmas, kept apart from the filter's definition. */
  lemma AppendStep<T>(whole: seq<T>, init: seq<T>, left: seq<T>, right: seq<T>, rightInit: seq<T>, tail: seq<T>)
    requires whole == init + tail
    requires init == left + rightInit
    requires right == rightInit + tail
    ensures whole == left + right
  {
  }

  /**
   * Only which events are busy matters, not their order or repetition, so sorting
   * `all_events` by start time does not change the result.
   */
  lemma {:induction false} FreeSlotsDependOnlyOnEventSet(slots: seq<Slot>, busy1: seq<Event>, busy2: seq<Event>)
    requires forall e :: e in busy1 <==> e in busy2
    ensures FreeSlots(slots, busy1) == FreeSlots(slots, busy2)
  {
    if |slots| > 0 {
      FreeSlotsDependOnlyOnEventSet(slots[..|slots| - 1], busy1, busy2);
      assert IsFree(slots[|slots| - 1], busy1) == IsFree(slots[|slots| - 1], busy2);
    }
  }

  /** Slots that no busy event overlaps all survive the filter. */
  lemma {:induction false} FreeSlotsKeepsFreeSlots(slots: seq<Slot>, busy: seq<Event>)
    requires forall i :: 0 <= i < |slots| ==> IsFree(slots[i], busy)
    ensures FreeSlots(slots, busy) == slots
  {
    if |slots| > 0 {
      FreeSlotsKeepsFreeSlots(slots[..|slots| - 1], busy);
      assert slots[..|slots| - 1] + [slots[|slots| - 1]] == slots;
    }
  }

  /** An event that only touches a slot at its start or end does not block it. */
  lemma TouchingDoesNotBlock(slot: Slot, event: Event, slots: seq<Slot>)
    requires slot in slots
    requires event.end == slot.start || event.start == slot.end
    ensures slot in FreeSlots(slots, [event])
  {
    FreeSlotsMembership(slots, [event], slot);
  }

  /** Appending one calendar appends its contribution. */
  lemma BusyEventsSnoc(fetched: seq<Option<seq<Event>>>, one: Option<seq<Event>>)
    ensures BusyEvents(fetched + [one]) == BusyEvents(fetched) + Contribution(one)
  {
    assert (fetched + [one])[..|fetched|] == fetched;
  }

  /** `BusyEventsSnoc` for a list already split in two. */
  lemma BusyEventsSnocAfter(a: seq<Option<seq<Event>>>, b: seq<Option<seq<Event>>>, one: Option<seq<Event>>)
    ensures BusyEvents(a + (b + [one])) == BusyEvents(a + b) + Contribution(one)
  {
    var whole := a + (b + [one]);
    assert whole[..|whole| - 1] == a + b;
    assert whole[|whole| - 1] == one;
  }

  /** The events fetched from a list of calendars are those of each part, in order. */
  lemma {:induction false} BusyEventsAppend(a: seq<Option<seq<Event>>>, b: seq<Option<seq<Event>>>)
    ensures BusyEvents(a + b) == BusyEvents(a) + BusyEvents(b)
    decreases |b|
  {
    if |b| == 0 {
      assert a + b == a;
    } else {
      var b', last := b[..|b| - 1], b[|b| - 1];
      assert b' + [last] == b;
      BusyEventsAppend(a, b');
      BusyEventsSnocAfter(a, b', last);
      BusyEventsSnoc(b', last);
    }
  }

  /**
   * A calendar whose fetch failed, or found nothing, adds no events, and the
   * calendars before and after it still contribute theirs.
   */
  lemma FailedCalendarContributesNothing(before: seq<Option<seq<Event>>>, after: seq<Option<seq<Event>>>)
    ensures BusyEvents(before + [None] + after) == BusyEvents(before + after)
    ensures BusyEvents(before + [Some([])] + after) == BusyEvents(before + after)
  {
    BusyEventsAppend(before + [None], after);
    BusyEventsAppend(before, [None]);
    BusyEventsAppend(before + [Some([])], after);
    BusyEventsAppend(before, [Some([])]);
    BusyEventsAppend(before, after);
    assert BusyEvents([None]) == [];
    assert BusyEvents([Some([])]) == [];
  }

  /** The calendar of the scenario below: one fetch holding a single busy event. */
  lemma OneBusyEvent(event: Event)
    requires Blocks(event.showAs)
    ensures BusyEvents([Some([event])]) == [event]
  {
    BusyEventsSnoc([], Some([event]));
    assert [] + [Some([event])] == [Some([event])];
    assert [event][1..] == [];
    assert BlockingEvents([event]) == [event] + BlockingEvents([]);
  }

  /** A day's lattice that starts after every busy event has ended is entirely free. */
  lemma GridAfterEvents(from: int, dayEnd: int, duration: int, busy: seq<Event>)
    requires duration > 0 && from <= dayEnd
    requires forall e :: e in busy ==> e.end <= from
    ensures FreeSlots(DayGrid(from, dayEnd, duration), busy) == DayGrid(from, dayEnd, duration)
  {
    var grid := DayGrid(from, dayEnd, duration);
    DayGridLattice(from, dayEnd, duration);
    forall i | 0 <= i < |grid| ensures IsFree(grid[i], busy) {
      assert grid[i].start == from + i * duration >= from;
    }
    FreeSlotsKeepsFreeSlots(grid, busy);
  }

  /** When exactly the k-th slot is blocked, the filter removes that slot and keeps the rest in order. */
  lemma FreeSlotsDropsOne(slots: seq<Slot>, k: nat, busy: seq<Event>)
    requires k < |slots|
    requires forall i :: 0 <= i < |slots| && i != k ==> IsFree(slots[i], busy)
    requires !IsFree(slots[k], busy)
    ensures FreeSlots(slots, busy) == slots[..k] + slots[k + 1..]
  {
    var before, blocked, after := slots[..k], slots[k], slots[k + 1..|slots|];
    var tail := [blocked] + after;
    assert FreeSlots(before, busy) == before by {
      FreeRun(slots, 0, k, busy);
      assert slots[0..k] == before;
    }
    assert FreeSlots(tail, busy) == after by {
      FreeRun(slots, k + 1, |slots|, busy);
      BlockedFirst(blocked, after, busy);
    }
    assert slots == before + tail by {
      SplitAround(slots, k);
    }
    FreeSlotsAppend(before, tail, busy);
    assert after == slots[k + 1..];
  }

  /** A list is the part before position k, the element at k, and the part after. */
  lemma SplitAround<T>(s: seq<T>, k: nat)
    requires k < |s|
    ensures s == s[..k] + ([s[k]] + s[k + 1..|s|])
  {
  }

  /** A run of slots that no busy event overlaps passes the filter unchanged. */
  lemma FreeRun(slots: seq<Slot>, lo: nat, hi: nat, busy: seq<Event>)
    requires lo <= hi <= |slots|
    requires forall i :: lo <= i < hi ==> IsFree(slots[i], busy)
    ensures FreeSlots(slots[lo..hi], busy) == slots[lo..hi]
  {
    var run := slots[lo..hi];
    assert forall i :: 0 <= i < |run| ==> run[i] == slots[lo + i];
    FreeSlotsKeepsFreeSlots(run, busy);
  }

  /** A blocked slot in front of free ones is the only one dropped. */
  lemma BlockedFirst(blocked: Slot, after: seq<Slot>, busy: seq<Event>)
    requires !IsFree(blocked, busy)
    requires FreeSlots(after, busy) == after
    ensures FreeSlots([blocked] + after, busy) == after
  {
    assert FreeSlots([blocked], busy) == [] by {
      assert [blocked][..0] == [];
    }
    FreeSlotsAppend([blocked], after, busy);
  }

  /** An event covering exactly the k-th slot of a lattice blocks that slot and no other. */
  lemma GridLosesOneSlot(from: int, dayEnd: int, duration: int, k: nat, event: Event)
    requires duration > 0 && from <= dayEnd
    requires k < |DayGrid(from, dayEnd, duration)|
    requires event.start == from + k * duration && event.end == event.start + duration
    ensures var grid := DayGrid(from, dayEnd, duration);
            FreeSlots(grid, [event]) == grid[..k] + grid[k + 1..]
  {
    var busy := [event];
    var grid := DayGrid(from, dayEnd, duration);
    DayGridLattice(from, dayEnd, duration);
    forall i | 0 <= i < |grid| && i != k ensures IsFree(grid[i], busy) {
      LatticeCellsDisjoint(from, duration, i, k);
    }
    assert Overlaps(grid[k], event);
    FreeSlotsDropsOne(grid, k, busy);
  }

  /** With one busy event at 10:00 on the Monday, the free slots are the three day grids minus the 10:00 slot. */
  lemma ThreeDayFreeSlots(monday: int)
    requires TimeOfDay(monday) == 0 && Weekday(monday) == 0
    ensures |DayGrid(monday + 540, monday + 1020, 30)| == 16
    ensures var event := Event(monday + 600, monday + 630, false, Busy);
            var mon := DayGrid(monday + 540, monday + 1020, 30);
            FreeSlots(GenerateTimeSlots(monday + 540, monday + 3900, 30), [event])
              == (mon[..2] + mon[3..])
                 + (DayGrid(monday + 1980, monday + 2460, 30) + DayGrid(monday + 3420, monday + 3900, 30))
  {
    var event := Event(monday + 600, monday + 630, false, Busy);
    var busy := [event];
    var mon, tue, wed := DayGrid(monday + 540, monday + 1020, 30), DayGrid(monday + 1980, monday + 2460, 30),
                         DayGrid(monday + 3420, monday + 3900, 30);
    MondayToWednesday(monday, 30);
    DayGridLattice(monday + 540, monday + 1020, 30);
    assert |mon| == 16;
    GridLosesOneSlot(monday + 540, monday + 1020, 30, 2, event);
    GridAfterEvents(monday + 1980, monday + 2460, 30, busy);
    GridAfterEvents(monday + 3420, monday + 3900, 30, busy);
    FreeSlotsAppend(tue, wed, busy);
    FreeSlotsAppend(mon, tue + wed, busy);
  }

  /** A full 09:00-17:00 day holds sixteen 30-minute slots, the i-th starting 30 * i minutes after 09:00. */
  lemma HalfHourGrid(from: int, dayEnd: int)
    requires dayEnd == from + (WorkingEnd - WorkingStart)
    ensures |DayGrid(from, dayEnd, 30)| == 16
    ensures forall i :: 0 <= i < 16 ==> DayGrid(from, dayEnd, 30)[i] == Slot(from + 30 * i, from + 30 * i + 30, 30)
  {
    DayGridLattice(from, dayEnd, 30);
  }

  /** Counting and indexing in a list with its third element removed. */
  lemma DropThirdFacts<T>(day: seq<T>, rest: seq<T>, free: seq<T>)
    requires |day| == 16 && |rest| == 32
    requires free == (day[..2] + day[3..]) + rest
    ensures |free| == 47 && free[1] == day[1] && free[2] == day[3]
  {
  }

  /**
   * Example: 30-minute slots from 09:00 on a Monday to 17:00 on the Wednesday,
   * one busy event 10:00-10:30 on the Monday. All 48 slots but the 10:00 one are free,
   * including the two that only touch the event.
   */
  lemma ThreeDayScenario(monday: int)
    requires TimeOfDay(monday) == 0 && Weekday(monday) == 0
    ensures var fetched := [Some([Event(monday + 600, monday + 630, false, Busy)])];
            var free := FreeSlots(GenerateTimeSlots(monday + 540, monday + 3900, 30), BusyEvents(fetched));
            && |free| == 47
            && Slot(monday + 600, monday + 630, 30) !in free
            && Slot(monday + 570, monday + 600, 30) in free
            && Slot(monday + 630, monday + 660, 30) in free
  {
    var event := Event(monday + 600, monday + 630, false, Busy);
    var busy := [event];
    OneBusyEvent(event);
    ThreeDayFreeSlots(monday);
    var mon, tue, wed := DayGrid(monday + 540, monday + 1020, 30), DayGrid(monday + 1980, monday + 2460, 30),
                         DayGrid(monday + 3420, monday + 3900, 30);
    HalfHourGrid(monday + 540, monday + 1020);
    HalfHourGrid(monday + 1980, monday + 2460);
    HalfHourGrid(monday + 3420, monday + 3900);
    var slots := GenerateTimeSlots(monday + 540, monday + 3900, 30);
    var free := FreeSlots(slots, busy);
    DropThirdFacts(mon, tue + wed, free);
    assert mon[1] == Slot(monday + 570, monday + 600, 30);
    assert mon[3] == Slot(monday + 630, monday + 660, 30);
    FreeSlotsMembership(slots, busy, Slot(monday + 600, monday + 630, 30));
    assert Overlaps(Slot(monday + 600, monday + 630, 30), event);
  }
}

=== FILE: models.dfy ===
/**
 * The stored records of the booking service and the one piece of logic they carry:
 * a shared link keeps the ids of its calendars as a comma-separated string.
 * Timestamps on calendars are whole seconds; booking times are whole minutes.
 */
module Models {
  import opened Wrappers
  import opened Text

  datatype User = User(id: int, username: string, email: string, passwordHash: string)

  /**
   * A connected Outlook calendar. The access token, refresh token, token expiry and
   * last-sync time are nullable columns, hence options.
   */
  datatype Calendar = Calendar(
    id: int,
    userId: int,
    name: string,
    outlookId: string,
    accessToken: Option<string>,
    refreshToken: Option<string>,
    tokenExpiry: Option<int>,
    lastSynced: Option<int>,
    active: bool)

  /** A public booking link; `calendarIds` is the comma-separated list of calendar ids. */
  datatype SharedLink = SharedLink(
    id: int,
    userId: int,
    linkId: string,
    name: string,
    description: string,
    calendarIds: Option<string>,
    active: bool)

  /**
   * A booking; `outlookEventIds` holds the created event ids, comma-separated, and is unset
   * until every event has been created.
   */
  datatype Booking = Booking(
    sharedLinkId: int,
    customerName: string,
    customerEmail: string,
    startTime: int,
    endTime: int,
    subject: string,
    description: string,
    outlookEventIds: Option<string>)

  /** Every piece is a literal `int()` accepts. */
  predicate AllIntegers(pieces: seq<string>)
  {
    forall i :: 0 <= i < |pieces| ==> ParseInt(pieces[i]).Some?
  }

  /** `int(piece)` for every piece in order; `None` as soon as one piece is not an integer literal. */
  function ParseAll(pieces: seq<string>): (r: Option<seq<int>>)
    ensures r.Some? ==> |r.value| == |pieces|
    ensures r.Some? ==> forall i :: 0 <= i < |pieces| ==> ParseInt(pieces[i]) == Some(r.value[i])
    ensures r.Some? <==> AllIntegers(pieces)
  {
    if |pieces| == 0 then Some([])
    else
      match ParseInt(pieces[0])
      case None => None
      case Some(first) =>
        match ParseAll(pieces[1..])
        case None => None
        case Some(rest) => Some([first] + rest)
  }

  /**
   * `SharedLink.get_calendar_ids`: an unset or empty string means no calendars; otherwise
   * every comma-separated segment must be an integer literal, or the call fails (`None`).
   */
  function GetCalendarIds(stored: Option<string>): (r: Option<seq<int>>)
    ensures stored.None? || stored == Some("") ==> r == Some([])
    ensures stored.Some? && stored.value != "" && r.Some? ==>
              |r.value| == multiset(stored.value)[','] + 1
    ensures stored.Some? && stored.value != "" ==>
              (r.Some? <==> AllIntegers(Split(stored.value, ',')))
  {
    if stored.None? || stored.value == "" then Some([])
    else ParseAll(Split(stored.value, ','))
  }

  /** `str(id)` for every id, in order. */
  function Decimals(ids: seq<int>): (texts: seq<string>)
    ensures |texts| == |ids|
    ensures forall i :: 0 <= i < |ids| ==> ParseInt(texts[i]) == Some(ids[i])
    ensures forall i :: 0 <= i < |ids| ==> |texts[i]| > 0 && ',' !in texts[i]
  {
    var texts := seq(|ids|, i requires 0 <= i < |ids| => IntToDecimal(ids[i]));
    assert forall i :: 0 <= i < |ids| ==> ParseInt(texts[i]) == Some(ids[i]) by {
      forall i | 0 <= i < |ids| ensures ParseInt(texts[i]) == Some(ids[i]) {
        ParseIntToDecimal(ids[i]);
      }
    }
    texts
  }

  /** `SharedLink.set_calendar_ids`: the decimal ids joined by commas. */
  function SetCalendarIds(ids: seq<int>): (stored: string)
    ensures stored == "" <==> |ids| == 0
    ensures |ids| > 0 ==> Split(stored, ',') == Decimals(ids)
  {
    var texts := Decimals(ids);
    var stored := Join(texts, ',');
    assert |ids| > 0 ==> |stored| > 0 && Split(stored, ',') == texts by {
      if |ids| > 0 {
        SplitJoin(texts, ',');
        JoinNonEmpty(texts, ',');
      }
    }
    stored
  }

  /** A join whose first part is non-empty is non-empty. */
  lemma JoinNonEmpty(parts: seq<string>, sep: char)
    requires |parts| > 0 && |parts[0]| > 0
    ensures |Join(parts, sep)| > 0
  {
  }

  /** Parsing pieces that are exactly the decimal texts of `ids` gives back `ids`. */
  lemma ParseAllDecimals(ids: seq<int>)
    ensures ParseAll(Decimals(ids)) == Some(ids)
  {
    var texts := Decimals(ids);
    var r := ParseAll(texts);
    assert r.Some?;
    forall i | 0 <= i < |ids| ensures r.value[i] == ids[i] {
      assert ParseInt(texts[i]) == Some(r.value[i]);
    }
    assert r.value == ids;
  }

  /** Reading back what `set_calendar_ids` stored gives the same ids, empty list included. */
  lemma CalendarIdsRoundTrip(ids: seq<int>)
    ensures GetCalendarIds(Some(SetCalendarIds(ids))) == Some(ids)
  {
    if |ids| > 0 {
      ParseAllDecimals(ids);
    }
  }

  /** A stored string with an empty segment (two adjacent commas, or a leading or trailing one) fails. */
  lemma EmptySegmentFails(stored: string, i: nat)
    requires stored != ""
    requires i < |Split(stored, ',')| && Split(stored, ',')[i] == ""
    ensures GetCalendarIds(Some(stored)).None?
  {
    assert ParseInt(Split(stored, ',')[i]).None?;
  }

  /** In particular, a trailing comma makes `get_calendar_ids` fail. */
  lemma TrailingCommaFails(stored: string)
    requires |stored| > 0 && stored[|stored| - 1] == ','
    ensures GetCalendarIds(Some(stored)).None?
  {
    SplitTrailingSeparator(stored, ',');
    EmptySegmentFails(stored, |Split(stored, ',')| - 1);
  }
}

=== FILE: slots.dfy ===
/**
 * The slot generator of `generate_time_slots`: it walks forward from the window
 * start, snaps to 09:00, jumps to the next midnight once the working day is over
 * or the next slot would overrun it, skips Saturdays and Sundays, and otherwise
 * emits a slot and moves on by one slot length.
 */
module Slots {
  import opened Wrappers
  import opened Clock

  /** One candidate appointment: the half-open range `[start, end)` in minutes and the configured length. */
  datatype Slot = Slot(start: int, end: int, duration: int)

  /** How one iteration decides that a slot runs past the end of the working day. */
  datatype OverrunTest =
    | TimeOfDayOnly  // as written: only the end's time of day is compared with 17:00
    | SameDay        // as intended: the end is compared with 17:00 of the slot's own day

  predicate Overruns(test: OverrunTest, start: int, end: int)
  {
    match test
    case TimeOfDayOnly => TimeOfDay(end) > WorkingEnd
    case SameDay => end > Midnight(start) + WorkingEnd
  }

  /** The effect of one loop iteration: the new `current_time` and the slot it appends, if any. */
  datatype Step = Step(next: int, emitted: Option<Slot>)

  /** One iteration of the generator loop, started at `current`. */
  function StepFrom(test: OverrunTest, current: int, duration: int): (step: Step)
    requires duration > 0
    ensures current < step.next
    ensures step.emitted.Some? ==>
              && step.emitted.value.end == step.next
              && (|| step.emitted.value.start == current
                  || (current < step.emitted.value.start == Midnight(current) + WorkingStart))
  {
    if TimeOfDay(current) >= WorkingEnd then
      Step(NextMidnight(current), None)
    else
      var start := if TimeOfDay(current) < WorkingStart then Midnight(current) + WorkingStart else current;
      var end := start + duration;
      if Overruns(test, start, end) then Step(NextMidnight(start), None)
      else if IsWorkday(start) then Step(end, Some(Slot(start, end, duration)))
      else Step(end, None)
  }

  /** The shape of every slot the generator emits, whichever overrun test it uses. */
  predicate WellFormed(test: OverrunTest, s: Slot, duration: int)
  {
    && s.duration == duration
    && s.end == s.start + duration
    && IsWorkday(s.start)
    && WorkingStart <= TimeOfDay(s.start) < WorkingEnd
    && !Overruns(test, s.start, s.end)
  }

  /** Each slot ends no later than any later slot starts. */
  predicate Chronological(slots: seq<Slot>)
  {
    forall i, j :: 0 <= i < j < |slots| ==> slots[i].end <= slots[j].start
  }

  /** A snapped start lies on the same day as the time it was snapped from. */
  lemma SnapKeepsDay(current: int)
    ensures Midnight(Midnight(current) + WorkingStart) == Midnight(current)
    ensures TimeOfDay(Midnight(current) + WorkingStart) == WorkingStart
  {
    var m := Midnight(current);
    assert m == DayOf(current) * MinutesPerDay;
    assert (m + WorkingStart) / MinutesPerDay == DayOf(current);
  }

  /**
   * The generator loop from `current` until `current_time >= endDate`. A slot may
   * start at or after `endDate` only through the 09:00 snap of a day that began
   * before `endDate`.
   */
  function Generate(test: OverrunTest, current: int, endDate: int, duration: int): (slots: seq<Slot>)
    requires duration > 0
    ensures forall i :: 0 <= i < |slots| ==> current <= slots[i].start && WellFormed(test, slots[i], duration)
    ensures forall i :: 0 <= i < |slots| ==>
              || slots[i].start < endDate
              || (TimeOfDay(slots[i].start) == WorkingStart && Midnight(slots[i].start) < endDate)
    ensures Chronological(slots)
    decreases endDate - current
  {
    if current >= endDate then []
    else
      var step := StepFrom(test, current, duration);
      SnapKeepsDay(current);
      var rest := Generate(test, step.next, endDate, duration);
      if step.emitted.Some? then [step.emitted.value] + rest else rest
  }

  /** `generate_time_slots(start_date, end_date, slot_duration)` with the overrun check as intended. */
  function GenerateTimeSlots(startDate: int, endDate: int, duration: int): (slots: seq<Slot>)
    requires duration > 0
    ensures forall i :: 0 <= i < |slots| ==>
              && slots[i].duration == duration
              && slots[i].end == slots[i].start + duration
              && startDate <= slots[i].start
              && IsWorkday(slots[i].start)
              && Midnight(slots[i].start) + WorkingStart <= slots[i].start
              && slots[i].end <= Midnight(slots[i].start) + WorkingEnd
    ensures Chronological(slots)
    ensures duration > WorkingEnd - WorkingStart ==> slots == []
  {
    var slots := Generate(SameDay, startDate, endDate, duration);
    assert |slots| > 0 ==> slots[0].end - slots[0].start <= WorkingEnd - WorkingStart;
    slots
  }

  /** `generate_time_slots` exactly as written, comparing only the end's time of day with 17:00. */
  function GenerateTimeSlotsAsWritten(startDate: int, endDate: int, duration: int): (slots: seq<Slot>)
    requires duration > 0
    ensures forall i :: 0 <= i < |slots| ==>
              && slots[i].duration == duration
              && slots[i].end == slots[i].start + duration
              && startDate <= slots[i].start
              && IsWorkday(slots[i].start)
              && WorkingStart <= TimeOfDay(slots[i].start) < WorkingEnd
              && TimeOfDay(slots[i].end) <= WorkingEnd
    ensures Chronological(slots)
  {
    Generate(TimeOfDayOnly, startDate, endDate, duration)
  }

  /** A time of day added to a midnight stays on that day. */
  lemma WithinDay(m: int, x: int)
    requires TimeOfDay(m) == 0 && 0 <= x < MinutesPerDay
    ensures Midnight(m + x) == m && TimeOfDay(m + x) == x
  {
    assert m == Midnight(m);
    assert (m + x) / MinutesPerDay == m / MinutesPerDay;
  }

  /** For slots of at most 7 hours, no slot can reach midnight, so both overrun tests agree on one iteration. */
  lemma StepsAgreeForShortSlots(current: int, duration: int)
    requires 0 < duration <= WorkingEnd - WorkingStart - 60
    ensures StepFrom(TimeOfDayOnly, current, duration) == StepFrom(SameDay, current, duration)
  {
    if TimeOfDay(current) < WorkingEnd {
      var start := if TimeOfDay(current) < WorkingStart then Midnight(current) + WorkingStart else current;
      SnapKeepsDay(current);
      assert WorkingStart <= TimeOfDay(start) < WorkingEnd;
      WithinDay(Midnight(start), TimeOfDay(start) + duration);
    }
  }

  /**
   * For slots of at most 7 hours the generator as written and the corrected one
   * produce the same slots, so the correction only matters for longer slots.
   */
  lemma {:induction false} AsWrittenAgreesForShortSlots(current: int, endDate: int, duration: int)
    requires 0 < duration <= WorkingEnd - WorkingStart - 60
    ensures GenerateTimeSlotsAsWritten(current, endDate, duration) == GenerateTimeSlots(current, endDate, duration)
    decreases endDate - current
  {
    if current < endDate {
      StepsAgreeForShortSlots(current, duration);
      AsWrittenAgreesForShortSlots(StepFrom(SameDay, current, duration).next, endDate, duration);
    }
  }

  /**
   * The overrun check as written lets a slot run to midnight: with 450-minute slots
   * from Monday 00:00, the 16:30 slot ends at 00:00 on Tuesday and is still emitted.
   * The corrected generator stops after the 09:00 slot.
   */
  lemma MidnightOverrunAsWritten()
    ensures GenerateTimeSlotsAsWritten(0, 1000, 450) == [Slot(540, 990, 450), Slot(990, 1440, 450)]
    ensures var late := GenerateTimeSlotsAsWritten(0, 1000, 450)[1];
            late.end > Midnight(late.start) + WorkingEnd
    ensures GenerateTimeSlots(0, 1000, 450) == [Slot(540, 990, 450)]
  {
    assert StepFrom(TimeOfDayOnly, 0, 450) == Step(990, Some(Slot(540, 990, 450)));
    assert StepFrom(TimeOfDayOnly, 990, 450) == Step(1440, Some(Slot(990, 1440, 450)));
    assert StepFrom(SameDay, 0, 450) == Step(990, Some(Slot(540, 990, 450)));
    assert StepFrom(SameDay, 990, 450) == Step(1440, None);
    assert Generate(TimeOfDayOnly, 1440, 1000, 450) == [];
    assert Generate(TimeOfDayOnly, 990, 1000, 450) == [Slot(990, 1440, 450)];
    assert Generate(SameDay, 990, 1000, 450) == [];
  }

  /** Back-to-back slots from `from` for as long as they end by `dayEnd`: one day's lattice. */
  function DayGrid(from: int, dayEnd: int, duration: int): (grid: seq<Slot>)
    requires duration > 0
    decreases dayEnd - from
  {
    if from + duration > dayEnd then []
    else [Slot(from, from + duration, duration)] + DayGrid(from + duration, dayEnd, duration)
  }

  /**
   * The lattice in closed form: the i-th slot starts at `from + i * duration`, and
   * there are as many slots as whole slot lengths fit between `from` and `dayEnd`.
   */
  lemma {:induction false} DayGridLattice(from: int, dayEnd: int, duration: int)
    requires duration > 0 && from <= dayEnd
    ensures var grid := DayGrid(from, dayEnd, duration);
            && (forall i :: 0 <= i < |grid| ==>
                  grid[i] == Slot(from + i * duration, from + (i + 1) * duration, duration))
            && |grid| * duration <= dayEnd - from < (|grid| + 1) * duration
    decreases dayEnd - from
  {
    var grid := DayGrid(from, dayEnd, duration);
    if from + duration <= dayEnd {
      var rest := DayGrid(from + duration, dayEnd, duration);
      DayGridLattice(from + duration, dayEnd, duration);
      assert grid == [Slot(from, from + duration, duration)] + rest;
      forall i | 1 <= i < |grid|
        ensures grid[i] == Slot(from + i * duration, from + (i + 1) * duration, duration)
      {
        assert grid[i] == rest[i - 1];
        assert from + duration + (i - 1) * duration == from + i * duration;
        assert from + duration + i * duration == from + (i + 1) * duration;
      }
      assert |grid| * duration == |rest| * duration + duration;
    }
  }

  /** Inside working hours one iteration emits the slot starting now (on a weekday) or jumps to midnight. */
  lemma StepInsideWorkingHours(current: int, duration: int)
    requires duration > 0
    requires Midnight(current) + WorkingStart <= current < Midnight(current) + WorkingEnd
    ensures StepFrom(SameDay, current, duration)
         == if current + duration > Midnight(current) + WorkingEnd then Step(NextMidnight(current), None)
            else Step(current + duration, if IsWorkday(current) then Some(Slot(current, current + duration, duration)) else None)
  {
    assert WorkingStart <= TimeOfDay(current) < WorkingEnd;
  }

  /** Once no further slot fits before 17:00, the walk moves straight on to the next midnight. */
  lemma NoRoomLeft(current: int, endDate: int, duration: int)
    requires duration > 0
    requires Midnight(current) + WorkingStart <= current <= Midnight(current) + WorkingEnd
    requires current + duration > Midnight(current) + WorkingEnd
    ensures Generate(SameDay, current, endDate, duration) == Generate(SameDay, NextMidnight(current), endDate, duration)
  {
    if current < endDate {
      if current < Midnight(current) + WorkingEnd {
        StepInsideWorkingHours(current, duration);
      } else {
        assert StepFrom(SameDay, current, duration) == Step(NextMidnight(current), None);
      }
    }
  }

  /** When a slot still fits before 17:00, one iteration emits it on a weekday and moves to its end. */
  lemma EmitsNextSlot(current: int, endDate: int, duration: int)
    requires duration > 0
    requires Midnight(current) + WorkingStart <= current
    requires current + duration <= Midnight(current) + WorkingEnd <= endDate
    ensures Generate(SameDay, current, endDate, duration)
         == (if IsWorkday(current) then [Slot(current, current + duration, duration)] else [])
            + Generate(SameDay, current + duration, endDate, duration)
  {
    StepInsideWorkingHours(current, duration);
  }

  /**
   * The rest of the day of `current` consists of that day's lattice of slots from
   * `current` on (none on a weekend), followed by whatever the walk yields from the
   * next midnight.
   */
  ghost predicate RestOfDayIsGrid(current: int, endDate: int, duration: int)
    requires duration > 0
  {
    Generate(SameDay, current, endDate, duration)
    == (if IsWorkday(current) then DayGrid(current, Midnight(current) + WorkingEnd, duration) else [])
       + Generate(SameDay, NextMidnight(current), endDate, duration)
  }

  /** A lattice with room for one slot starts with that slot. */
  lemma DayGridCons(from: int, dayEnd: int, duration: int)
    requires duration > 0 && from + duration <= dayEnd
    ensures DayGrid(from, dayEnd, duration) == [Slot(from, from + duration, duration)] + DayGrid(from + duration, dayEnd, duration)
  {
  }

  /** Two timestamps of the same day share the next midnight and the weekday. */
  lemma SameDayFacts(t: int, u: int)
    requires Midnight(t) == Midnight(u)
    ensures NextMidnight(t) == NextMidnight(u) && IsWorkday(t) == IsWorkday(u)
  {
    assert DayOf(t) == DayOf(u);
  }

  /** The inductive step of `RestOfDay`: one emitted slot in front of the rest of the day. */
  lemma RestOfDayStep(current: int, endDate: int, duration: int)
    requires duration > 0
    requires Midnight(current) + WorkingStart <= current
    requires current + duration <= Midnight(current) + WorkingEnd <= endDate
    requires Midnight(current + duration) == Midnight(current)
    requires RestOfDayIsGrid(current + duration, endDate, duration)
    ensures RestOfDayIsGrid(current, endDate, duration)
  {
    var m := Midnight(current);
    var next := current + duration;
    EmitsNextSlot(current, endDate, duration);
    RestOfSameDay(current, next, endDate, duration);
    DayGridCons(current, m + WorkingEnd, duration);
    PrependStep(Generate(SameDay, current, endDate, duration), Generate(SameDay, next, endDate, duration),
                DayGrid(next, m + WorkingEnd, duration), Generate(SameDay, NextMidnight(current), endDate, duration),
                DayGrid(current, m + WorkingEnd, duration), Slot(current, next, duration), IsWorkday(current));
  }

  /** `RestOfDayIsGrid` at a later point of the same day, restated with the earlier point's day. */
  lemma RestOfSameDay(current: int, later: int, endDate: int, duration: int)
    requires duration > 0
    requires Midnight(later) == Midnight(current)
    requires RestOfDayIsGrid(later, endDate, duration)
    ensures Generate(SameDay, later, endDate, duration)
         == (if IsWorkday(current) then DayGrid(later, Midnight(current) + WorkingEnd, duration) else [])
            + Generate(SameDay, NextMidnight(current), endDate, duration)
  {
    SameDayFacts(current, later);
  }

  /** The list algebra of `RestOfDayStep`, kept apart from the generator's definitions. */
  lemma PrependStep<T>(here: seq<T>, there: seq<T>, grid: seq<T>, after: seq<T>, full: seq<T>, x: T, work: bool)
    requires here == (if work then [x] else []) + there
    requires there == (if work then grid else []) + after
    requires full == [x] + grid
    ensures here == (if work then full else []) + after
  {
    if work {
      assert [x] + (grid + after) == ([x] + grid) + after;
    } else {
      assert [] + there == there && [] + after == after;
    }
  }

  /**
   * From a point inside working hours, the rest of that day yields exactly its lattice
   * of slots (none on a weekend) and then the walk resumes at the next midnight.
   */
  lemma {:induction false} RestOfDay(current: int, endDate: int, duration: int)
    requires duration > 0
    requires Midnight(current) + WorkingStart <= current <= Midnight(current) + WorkingEnd
    requires endDate >= Midnight(current) + WorkingEnd
    ensures RestOfDayIsGrid(current, endDate, duration)
    decreases Midnight(current) + WorkingEnd - current
  {
    var m := Midnight(current);
    var next := current + duration;
    if next > m + WorkingEnd {
      NoRoomLeft(current, endDate, duration);
      assert DayGrid(current, m + WorkingEnd, duration) == [];
    } else {
      WithinDay(m, next - m);
      RestOfDay(next, endDate, duration);
      RestOfDayStep(current, endDate, duration);
    }
  }

  /**
   * A whole working day inside the window contributes its full lattice: 09:00,
   * 09:00 + d, ... for every slot that ends by 17:00, and nothing on a weekend.
   */
  lemma WholeDay(midnight: int, endDate: int, duration: int)
    requires duration > 0 && TimeOfDay(midnight) == 0
    requires endDate >= midnight + WorkingEnd
    ensures GenerateTimeSlots(midnight, endDate, duration)
         == (if IsWorkday(midnight) then DayGrid(midnight + WorkingStart, midnight + WorkingEnd, duration) else [])
            + GenerateTimeSlots(midnight + MinutesPerDay, endDate, duration)
  {
    var open := midnight + WorkingStart;
    WithinDay(midnight, WorkingStart);
    assert StepFrom(SameDay, midnight, duration) == StepFrom(SameDay, open, duration);
    RestOfDay(open, endDate, duration);
  }

  /**
   * The last day of a window that ends before 17:00: from a point inside working hours the
   * walk yields the day's lattice cells that start before `endDate` (none on a weekend) and
   * then stops. A cell starting at `s` is kept when `s < endDate`, that is when it ends by
   * `endDate + duration - 1`, and when it ends by 17:00.
   */
  lemma {:induction false} LastDay(current: int, endDate: int, duration: int)
    requires duration > 0
    requires Midnight(current) + WorkingStart <= current <= Midnight(current) + WorkingEnd
    requires endDate < Midnight(current) + WorkingEnd
    ensures var m := Midnight(current);
            var dayEnd := if endDate + duration - 1 < m + WorkingEnd then endDate + duration - 1 else m + WorkingEnd;
            Generate(SameDay, current, endDate, duration)
              == if IsWorkday(current) then DayGrid(current, dayEnd, duration) else []
    decreases Midnight(current) + WorkingEnd - current
  {
    var m := Midnight(current);
    var dayEnd := if endDate + duration - 1 < m + WorkingEnd then endDate + duration - 1 else m + WorkingEnd;
    var next := current + duration;
    if current < endDate {
      if next > m + WorkingEnd {
        LastSlotOverruns(current, endDate, duration);
      } else {
        WithinDay(m, next - m);
        LastDay(next, endDate, duration);
        LastDayStep(current, endDate, duration, dayEnd);
      }
    }
  }

  /** On the last day, a slot that would overrun 17:00 ends the walk. */
  lemma LastSlotOverruns(current: int, endDate: int, duration: int)
    requires duration > 0
    requires Midnight(current) + WorkingStart <= current < endDate < Midnight(current) + WorkingEnd
    requires current + duration > Midnight(current) + WorkingEnd
    ensures Generate(SameDay, current, endDate, duration) == []
  {
    StepInsideWorkingHours(current, duration);
    assert Generate(SameDay, NextMidnight(current), endDate, duration) == [];
  }

  /** The inductive step of `LastDay`: one emitted slot in front of the rest of the last day. */
  lemma LastDayStep(current: int, endDate: int, duration: int, dayEnd: int)
    requires duration > 0
    requires Midnight(current) + WorkingStart <= current < endDate < Midnight(current) + WorkingEnd
    requires current + duration <= Midnight(current) + WorkingEnd
    requires dayEnd == if endDate + duration - 1 < Midnight(current) + WorkingEnd then endDate + duration - 1
                       else Midnight(current) + WorkingEnd
    requires Midnight(current + duration) == Midnight(current)
    requires Generate(SameDay, current + duration, endDate, duration)
          == if IsWorkday(current + duration) then DayGrid(current + duration, dayEnd, duration) else []
    ensures Generate(SameDay, current, endDate, duration)
         == if IsWorkday(current) then DayGrid(current, dayEnd, duration) else []
  {
    var next := current + duration;
    var slot := Slot(current, next, duration);
    var work := IsWorkday(current);
    var here := Generate(SameDay, current, endDate, duration);
    var there := Generate(SameDay, next, endDate, duration);
    var grid := DayGrid(next, dayEnd, duration);
    assert here == (if work then [slot] else []) + there by {
      StepInsideWorkingHours(current, duration);
    }
    assert there == (if work then grid else []) + [] by {
      SameDayFacts(current, next);
    }
    DayGridCons(current, dayEnd, duration);
    PrependStep(here, there, grid, [], DayGrid(current, dayEnd, duration), slot, work);
    assert here == (if work then DayGrid(current, dayEnd, duration) else []) + [];
  }

  /**
   * A window that starts at a midnight and ends before 17:00 that day. If it ends after
   * 09:00 it yields the day's lattice cells that start before its end. Otherwise the 09:00
   * snap still emits the 09:00 slot, which then starts at or after the window's end.
   */
  lemma FinalDay(midnight: int, endDate: int, duration: int)
    requires duration > 0 && TimeOfDay(midnight) == 0
    requires midnight < endDate < midnight + WorkingEnd
    ensures var open := midnight + WorkingStart;
            var dayEnd := if endDate + duration - 1 < midnight + WorkingEnd then endDate + duration - 1
                          else midnight + WorkingEnd;
            open < endDate ==>
              GenerateTimeSlots(midnight, endDate, duration)
                == if IsWorkday(midnight) then DayGrid(open, dayEnd, duration) else []
    ensures var open := midnight + WorkingStart;
            endDate <= open ==>
              GenerateTimeSlots(midnight, endDate, duration)
                == if IsWorkday(midnight) && open + duration <= midnight + WorkingEnd
                   then [Slot(open, open + duration, duration)] else []
  {
    var open := midnight + WorkingStart;
    WithinDay(midnight, WorkingStart);
    SameDayFacts(midnight, open);
    if open < endDate {
      assert StepFrom(SameDay, midnight, duration) == StepFrom(SameDay, open, duration);
      LastDay(open, endDate, duration);
    } else {
      SnapPastEnd(midnight, endDate, duration);
    }
  }

  /** A window ending by 09:00 still gets the 09:00 slot through the snap, and nothing after it. */
  lemma SnapPastEnd(midnight: int, endDate: int, duration: int)
    requires duration > 0 && TimeOfDay(midnight) == 0
    requires midnight < endDate <= midnight + WorkingStart
    requires Midnight(midnight + WorkingStart) == midnight && IsWorkday(midnight + WorkingStart) == IsWorkday(midnight)
    ensures Generate(SameDay, midnight, endDate, duration)
         == if IsWorkday(midnight) && midnight + WorkingStart + duration <= midnight + WorkingEnd
            then [Slot(midnight + WorkingStart, midnight + WorkingStart + duration, duration)] else []
  {
    var open := midnight + WorkingStart;
    assert TimeOfDay(midnight) < WorkingStart;
    assert StepFrom(SameDay, midnight, duration).next >= open;
    assert Generate(SameDay, StepFrom(SameDay, midnight, duration).next, endDate, duration) == [];
  }

  /** The day after a midnight starts at the next midnight, one weekday later. */
  lemma NextDay(midnight: int)
    requires TimeOfDay(midnight) == 0
    ensures TimeOfDay(midnight + MinutesPerDay) == 0
    ensures Weekday(midnight + MinutesPerDay) == (Weekday(midnight) + 1) % 7
  {
    assert DayOf(midnight + MinutesPerDay) == DayOf(midnight) + 1;
  }

  /**
   * From 09:00 on a Monday to 17:00 on the Wednesday after it, the generator yields
   * the full lattice of each of the three days.
   */
  lemma MondayToWednesday(monday: int, duration: int)
    requires duration > 0
    requires TimeOfDay(monday) == 0 && Weekday(monday) == 0
    ensures GenerateTimeSlots(monday + 540, monday + 3900, duration)
         == DayGrid(monday + 540, monday + 1020, duration)
            + (DayGrid(monday + 1980, monday + 2460, duration) + DayGrid(monday + 3420, monday + 3900, duration))
  {
    var tuesday, wednesday := monday + MinutesPerDay, monday + 2 * MinutesPerDay;
    WithinDay(monday, WorkingStart);
    RestOfDay(monday + 540, monday + 3900, duration);
    NextDay(monday);
    WholeDay(tuesday, monday + 3900, duration);
    NextDay(tuesday);
    WholeDay(wednesday, monday + 3900, duration);
    assert Generate(SameDay, monday + 4320, monday + 3900, duration) == [];
    assert DayGrid(monday + 3420, monday + 3900, duration) + [] == DayGrid(monday + 3420, monday + 3900, duration);
  }
}

=== FILE: text.dfy ===
/**
 * Strings as Python treats them in the model: `sep.join(parts)`, `s.split(sep)`,
 * `str(n)` for an integer and `int(s)` for a decimal literal.
 */
module Text {
  import opened Wrappers

  /** Python's `sep.join(parts)`: the parts with one `sep` between consecutive parts. */
  function Join(parts: seq<string>, sep: char): string
  {
    if |parts| == 0 then ""
    else if |parts| == 1 then parts[0]
    else parts[0] + [sep] + Join(parts[1..], sep)
  }

  /**
   * Python's `s.split(sep)`: the maximal `sep`-free pieces between separators.
   * There is always one more piece than there are separators, so "" splits into [""].
   */
  function Split(s: string, sep: char): (parts: seq<string>)
    ensures |parts| == multiset(s)[sep] + 1
    ensures forall i :: 0 <= i < |parts| ==> sep !in parts[i]
    decreases |s|
  {
    if |s| == 0 then [""]
    else
      var rest := Split(s[1..], sep);
      assert s == [s[0]] + s[1..];
      if s[0] == sep then [""] + rest
      else [[s[0]] + rest[0]] + rest[1..]
  }

  /** Prepending a character to a joined list prepends it to the first part. */
  lemma {:induction false} JoinConsFirst(c: char, p: string, ps: seq<string>, sep: char)
    ensures Join([[c] + p] + ps, sep) == [c] + Join([p] + ps, sep)
  {
    if |ps| > 0 {
      assert ([[c] + p] + ps)[1..] == ps;
      assert ([p] + ps)[1..] == ps;
    }
  }

  /** Splitting and re-joining with the same separator gives back the string. */
  lemma {:induction false} JoinSplit(s: string, sep: char)
    ensures Join(Split(s, sep), sep) == s
    decreases |s|
  {
    if |s| > 0 {
      var rest := Split(s[1..], sep);
      JoinSplit(s[1..], sep);
      assert s == [s[0]] + s[1..];
      if s[0] == sep {
        assert ([""] + rest)[1..] == rest;
      } else {
        JoinConsFirst(s[0], rest[0], rest[1..], sep);
        assert [rest[0]] + rest[1..] == rest;
      }
    }
  }

  /** A separator-free prefix is glued onto the first piece of whatever follows it. */
  lemma {:induction false} SplitFreePrefix(a: string, t: string, sep: char)
    requires sep !in a
    ensures Split(a + t, sep) == [a + Split(t, sep)[0]] + Split(t, sep)[1..]
    decreases |a|
  {
    if |a| > 0 {
      var pieces := Split(t, sep);
      assert Split(a[1..] + t, sep) == [a[1..] + pieces[0]] + pieces[1..] by {
        SplitFreePrefix(a[1..], t, sep);
      }
      assert Split(a + t, sep) == [[a[0]] + (a[1..] + pieces[0])] + pieces[1..] by {
        assert (a + t)[1..] == a[1..] + t;
        assert (a + t)[0] == a[0];
      }
      assert [a[0]] + (a[1..] + pieces[0]) == a + pieces[0];
    } else {
      var pieces := Split(t, sep);
      assert a + t == t;
      assert a + pieces[0] == pieces[0];
      assert [pieces[0]] + pieces[1..] == pieces;
    }
  }

  /** Joining separator-free parts and splitting again gives back the parts. */
  lemma {:induction false} SplitJoin(parts: seq<string>, sep: char)
    requires |parts| > 0
    requires forall i :: 0 <= i < |parts| ==> sep !in parts[i]
    ensures Split(Join(parts, sep), sep) == parts
    decreases |parts|
  {
    if |parts| == 1 {
      SplitFreePrefix(parts[0], "", sep);
      assert parts[0] + "" == parts[0];
    } else {
      var tail := Join(parts[1..], sep);
      var rest := [sep] + tail;
      assert Join(parts, sep) == parts[0] + rest by {
        assert parts[0] + [sep] + tail == parts[0] + ([sep] + tail);
      }
      assert Split(rest, sep) == [""] + parts[1..] by {
        SplitJoin(parts[1..], sep);
        assert rest[0] == sep && rest[1..] == tail;
      }
      assert Split(parts[0] + rest, sep) == parts by {
        SplitFreePrefix(parts[0], rest, sep);
        assert parts[0] + "" == parts[0];
        assert [parts[0]] + parts[1..] == parts;
      }
    }
  }

  /** When a string ends with the separator, its last piece is empty. */
  lemma {:induction false} SplitTrailingSeparator(s: string, sep: char)
    requires |s| > 0 && s[|s| - 1] == sep
    ensures Split(s, sep)[|Split(s, sep)| - 1] == ""
    decreases |s|
  {
    if |s| > 1 {
      var rest := Split(s[1..], sep);
      SplitTrailingSeparator(s[1..], sep);
      assert s[1..][|s[1..]| - 1] == sep;
      assert multiset(s[1..])[sep] >= 1;
    }
  }

  // ----- decimal integers -----

  predicate IsDigit(c: char) { '0' <= c <= '9' }

  predicate AllDigits(s: string) { forall i :: 0 <= i < |s| ==> IsDigit(s[i]) }

  function DigitChar(d: nat): (c: char)
    requires d < 10
    ensures IsDigit(c)
  {
    ('0' as int + d) as char
  }

  function DigitValue(c: char): (d: nat)
    requires IsDigit(c)
    ensures d < 10
  {
    c as int - '0' as int
  }

  /** Python's `str(n)` for a non-negative integer: decimal digits, no leading zeros. */
  function NatToDecimal(n: nat): (s: string)
    ensures |s| > 0 && AllDigits(s)
  {
    if n < 10 then [DigitChar(n)]
    else NatToDecimal(n / 10) + [DigitChar(n % 10)]
  }

  /** Python's `str(i)` for any integer: a minus sign before the digits of a negative number. */
  function IntToDecimal(i: int): (s: string)
    ensures |s| > 0 && ',' !in s
  {
    if i < 0 then "-" + NatToDecimal(-i) else NatToDecimal(i)
  }

  /** The value of a string of decimal digits, most significant first. */
  function DigitsValue(s: string): nat
    requires AllDigits(s)
  {
    if |s| == 0 then 0
    else DigitsValue(s[..|s| - 1]) * 10 + DigitValue(s[|s| - 1])
  }

  /**
   * Python's `int(s)` on a literal made of an optional sign and at least one ASCII
   * digit; any other string is rejected (Python raises `ValueError`).
   */
  function ParseInt(s: string): (r: Option<int>)
    ensures r.Some? ==> |s| > 0
  {
    if |s| > 1 && (s[0] == '-' || s[0] == '+') && AllDigits(s[1..]) then
      var magnitude: int := DigitsValue(s[1..]);
      Some(if s[0] == '-' then -magnitude else magnitude)
    else if |s| > 0 && AllDigits(s) then Some(DigitsValue(s))
    else None
  }

  /** Reading back the digits of `str(n)` gives `n`. */
  lemma {:induction false} DigitsOfNat(n: nat)
    ensures DigitsValue(NatToDecimal(n)) == n
  {
    if n >= 10 {
      var s := NatToDecimal(n);
      DigitsOfNat(n / 10);
      assert s[..|s| - 1] == NatToDecimal(n / 10);
    }
  }

  /** `int(str(i)) == i` for every integer. */
  lemma ParseIntToDecimal(i: int)
    ensures ParseInt(IntToDecimal(i)) == Some(i)
  {
    if i < 0 {
      DigitsOfNat(-i);
      assert IntToDecimal(i)[1..] == NatToDecimal(-i);
    } else {
      DigitsOfNat(i);
    }
  }
}

=== FILE: wrappers.dfy ===
/** Failure-carrying wrappers shared by the whole model. */
module Wrappers {

  /** A value that may be absent: Python's `None` versus a present value. */
  datatype Option<+T> = None | Some(value: T) {

    /** The value if present, else `default` (Python's `d.get(key, default)`). */
    function GetOr(default: T): T {
      match this
      case Some(v) => v
      case None => default
    }
  }

  /** The outcome of an operation that either yields a value or fails with an error. */
  datatype Result<+T, +E> = Ok(value: T) | Err(error: E)
}
